=== FILE: README.md ===
# invoice-web in Dafny

A model of the server-side core of invoice-web. invoice-web is a quotation (견적서) viewer. It reads quotations and their line items from a Notion database, shows them to clients at `/invoice/<id>`, and lists them for an administrator. The model covers:

- the page guards and property accessors over the store's raw pages;
- the transformation of raw pages into `Invoice` values, with every fallback;
- the invoice service:
  - the error classification of a page fetch;
  - the settle-and-filter join of item pages;
  - retry with exponential backoff;
  - the list and search queries;
- the fixed-window rate limiter and the middleware in front of `/api` and `/admin`;
- the per-key deduplication of in-flight fetches;
- file-name sanitising and the PDF endpoint;
- environment validation;
- log-context redaction;
- share links;
- the sample data generator.

The store is replaced by oracles: `Retrieve` answers page retrievals and `DataSource` answers queries. The clock becomes a `now` argument or a `Calendar` value. JWT verification becomes a `verifyToken` predicate, and PDF rendering becomes a `Renderer` function. Retry waits and the rate limiter's table are returned as data, not performed or mutated.

One module per source file, all top level:

| module | models |
|---|---|
| `Wrappers` | Option and Result |
| `Text` | JavaScript whitespace, ASCII lower-casing, `includes`, `trim`, number rendering, `padStart`, UTF-16 length |
| `Domain` | `types/invoice.ts` |
| `Constants` | `constants.ts` |
| `NotionTypes` | `types/notion.ts` |
| `NotionParser` | `notion-parser.ts` |
| `Retry` | `withRetry` |
| `InvoiceService` | the rest of `invoice.service.ts` |
| `RateLimit` | `rate-limit.ts` |
| `Middleware` | `middleware.ts` |
| `Dedup` | `getInvoiceWithDedup` |
| `Format` | `format.ts` |
| `Env` | `env.ts` |
| `Logger` | `sanitizeContext` |
| `PdfRoute` | `generate-pdf/route.ts` |
| `LinkGenerator` | `link-generator.ts` |
| `MockData` | `mock-data.ts` |

The model follows the code where it departs from the system's stated invariant, which is that an invoice without an explicit total has `totalAmount == sum(items[].amount)`. `calculateTotalFromItems` adds each item page's raw `금액` value, counting a missing one as 0. `transformNotionToItem` instead derives a missing amount as `quantity * unitPrice`. The promise therefore holds only when every item page carries its amount (`NotionParser.InvoiceTotalIsItemSum`). `NotionParser.TotalIgnoresDerivedAmounts` exhibits an item whose derived amount 10 is missing from the total 0.

Three more behaviours follow from JavaScript semantics and are modelled as the code has them:

- The status table is a plain object literal, so a store label such as 'constructor' or 'toString' looks up a member inherited from `Object.prototype`. That member is truthy, so it becomes the invoice's `status` in place of 'pending' (`NotionParser.MapKoreanStatus`).
- The PDF route puts the sanitised quotation number into a `Content-Disposition` header. Sanitising keeps Hangul and NUL. The response constructor, however, accepts only byte-string header values, and it refuses NUL, LF and CR. A number with a character above U+00FF, or with a NUL, therefore ends in the route's `catch` as a 500 (`PdfRoute.WideNumberIsServerError`, `PdfRoute.NulNumberIsServerError`).
- The admin list page passes the `status` URL parameter to the search unchecked. The search looks it up in a plain-object `statusMap`, so an unknown value sends `undefined` as the select operand, and a name like 'constructor' sends an inherited member (`InvoiceService.StatusMapLookup`).

## Model

| member | source | states |
|---|---|---|
| Constants.KoreanToStatus | src/lib/constants.ts:32-36 | indexing the plain-object table answers a status only for that status's own label, the inherited member for exactly the twelve `Object.prototype` names ('constructor', 'toString', '__proto__', …), and `undefined` for every other string |
| Constants.LabelTablesInverse | src/lib/constants.ts:23-36 | the label table and the Korean-to-status table are mutual inverses |
| Constants.StatusValuesExact | src/lib/constants.ts:10-14 | the status constants are exactly 'pending', 'approved', 'rejected', one per status |
| Constants.ErrorKindOf | src/lib/constants.ts:50-56 | membership in the error-message values, answered with the kind whose message it is; a miss means no kind has that message |
| Constants.ErrorMessagesDistinct | src/lib/constants.ts:50-56 | the five error messages are pairwise distinct, so an error is classified unambiguously by its message |
| Constants.Raise | src/lib/constants.ts:50-56 | an error built from a message constant has no provider code and is recognised as that kind |
| NotionTypes.IsInvoicePage | src/types/notion.ts:98-103 | a page is an invoice page exactly when its property bag holds the '견적서 번호' key |
| NotionTypes.IsItemPage | src/types/notion.ts:107-111 | a page is an item page exactly when its property bag holds the '항목명' key |
| NotionTypes.GuardsTestKeyPresenceOnly | src/types/notion.ts:98-111 | `isInvoicePage` and `isItemPage` test only for the presence of the invoice-number or item-name key, whatever value it holds |
| NotionTypes.AccessorsAreTyped | src/types/notion.ts:25-93 | a property is read only when it has its declared type; an absent key or one of another type reads as missing |
| NotionParser.ExtractPlainText | src/lib/utils/notion-parser.ts:101-109 | an absent fragment list gives ''; otherwise the fragments joined in order |
| NotionParser.ConcatAppend | src/lib/utils/notion-parser.ts:108 | joining distributes over splitting the fragment list: order kept, nothing dropped |
| NotionParser.ConcatLength | src/lib/utils/notion-parser.ts:108 | the joined text is as long as all fragments together, and empty exactly when they all are |
| NotionParser.TextOr | src/lib/utils/notion-parser.ts:28-29 | `text \|\| fallback`: the empty string is replaced, any other text kept |
| NotionParser.NumberOr | src/lib/utils/notion-parser.ts:35 | `number \|\| fallback`: both an absent number and 0 are replaced |
| NotionParser.MapKoreanStatus | src/lib/utils/notion-parser.ts:83-94 | '승인' maps to approved and '거절' to rejected; a label naming an `Object.prototype` member yields that inherited member, truthy and not a status; every other label, missing or empty, maps to pending |
| NotionParser.TransformItem | src/lib/utils/notion-parser.ts:58-76 | an item keeps the page id; its description is the title text when that is non-empty and '항목명 없음' when it is empty; quantity and unit price default to 0, and a missing or zero amount becomes quantity × unit price |
| NotionParser.TransformItems | src/lib/utils/notion-parser.ts:39 | one item per item page, in page order |
| NotionParser.TransformInvoice | src/lib/utils/notion-parser.ts:20-51 | the invoice keeps the page id and has one item per item page in order; number and client name are the extracted text when it is non-empty and their defaults ('INV-UNKNOWN', '미지정') when it is empty, so never empty; dates fall back to today and to the default validity; a missing or zero total becomes the item total; status via the label map |
| NotionParser.CalculateTotalFromItems | src/lib/utils/notion-parser.ts:134-141 | no item pages total 0 and one item page totals its raw `금액`, a missing one counted as 0; with `CalculateTotalAppend` this fixes the fold |
| NotionParser.CalculateTotalBounds | src/lib/utils/notion-parser.ts:134-141 | item pages without a nonzero amount total 0, and non-negative amounts give a non-negative total |
| NotionParser.CalculateTotalAppend | src/lib/utils/notion-parser.ts:134-141 | the total of a split list of item pages is the sum of the parts' totals |
| NotionParser.TotalMatchesItemAmounts | src/lib/utils/notion-parser.ts:134-141 | when every item page carries a nonzero amount, the fallback total is the sum of the transformed items' amounts |
| NotionParser.InvoiceTotalIsItemSum | src/lib/utils/notion-parser.ts:34-35 | an invoice without an explicit total whose item pages all carry amounts has `totalAmount == sum(items[].amount)` |
| NotionParser.TotalIgnoresDerivedAmounts | src/lib/utils/notion-parser.ts:134-141 | the fallback total adds raw amounts only: an item priced by quantity and unit price alone adds 0 to the total |
| Retry.WithRetry | src/lib/services/invoice.service.ts:132-165 | at most `maxRetries` calls, and the result is that of the last call; every earlier call failed non-terminally and was followed by the backoff wait of its index; a failure is terminal or the last allowed; with no attempts allowed, 'Retry failed' |
| Retry.Attempts | src/lib/services/invoice.service.ts:138-162 | the loop from attempt i on: same guarantees, waits indexed from i |
| Retry.BackoffSchedule | src/lib/services/invoice.service.ts:154 | the waits are 1000, 2000 and 4000 ms, then 5000 ms, always between 1000 and 5000 |
| Retry.TerminalIsNotRetried | src/lib/services/invoice.service.ts:145-151 | a not-found or invalid-data failure is rethrown after one call with no wait |
| Retry.SucceedsOnThirdAttempt | src/lib/services/invoice.service.ts:132-165 | two transient failures and then a success return the success after waits of 1000 and 2000 ms |
| Retry.ExhaustionRethrowsLastError | src/lib/services/invoice.service.ts:145-151 | when every attempt fails transiently, all attempts run and the last error is rethrown after `maxRetries - 1` waits |
| Retry.Pow2Monotone | src/lib/services/invoice.service.ts:154 | the exponential factor never decreases with the attempt index |
| InvoiceService.ClassifyFetchError | src/lib/services/invoice.service.ts:59-83 | object_not_found becomes not-found; a known message passes through unchanged; anything else becomes the provider error; the result always carries a known message |
| InvoiceService.ClassifyIdempotent | src/lib/services/invoice.service.ts:59-83 | classifying an already classified error changes nothing |
| InvoiceService.FetchInvoicePage | src/lib/services/invoice.service.ts:40-84 | success exactly for a full page with the invoice-number key, returned as is; a partial or foreign page is invalid data; a rejected retrieval is classified |
| InvoiceService.KeepItemPages | src/lib/services/invoice.service.ts:104-111 | only item pages are kept, and never more than were retrieved |
| InvoiceService.Retrievals | src/lib/services/invoice.service.ts:99-101 | one settled retrieval per id, in id order |
| InvoiceService.FetchInvoiceItems | src/lib/services/invoice.service.ts:91-123 | no ids means no retrieval; otherwise the kept pages are exactly the filtered settled retrievals in id order and the failure count is the number of rejections; kept, failed and dropped add up to the number of ids; a page is kept exactly when some retrieval fulfilled with it and it is an item page; when all are item pages, all are kept in id order |
| InvoiceService.FetchInvoiceItemsAppend | src/lib/services/invoice.service.ts:104-112 | fetching the items of two id lists in turn keeps the first list's pages and then the second's, duplicates included, and adds their failure counts, whatever fails |
| InvoiceService.SettleFacts | src/lib/services/invoice.service.ts:104-111 | the membership and all-fulfilled facts of the settle-and-filter rule |
| InvoiceService.CountRejectedZero | src/lib/services/invoice.service.ts:114 | no failure is counted exactly when every retrieval fulfilled |
| InvoiceService.SettleAccounting | src/lib/services/invoice.service.ts:104-114 | every retrieval is kept, rejected or dropped by a guard, exactly one of the three |
| InvoiceService.KeepItemPagesAppend | src/lib/services/invoice.service.ts:104-114 | filtering and counting commute with splitting the batch, so kept pages stay in id order |
| InvoiceService.KeepItemPagesMembership | src/lib/services/invoice.service.ts:104-111 | a page is kept exactly when some retrieval fulfilled with it and it is an item page |
| InvoiceService.AllFulfilledKeepsAll | src/lib/services/invoice.service.ts:104-114 | when every retrieval yields an item page, nothing is lost, order is kept and no failure is counted |
| InvoiceService.AttemptInvoice | src/lib/services/invoice.service.ts:174-186 | an attempt fails exactly when the invoice page fetch fails, with its error; otherwise the invoice is the fetched page transformed with the item pages kept from retrieving its relation ids, whatever the other item retrievals do |
| InvoiceService.GetInvoiceFromNotion | src/lib/services/invoice.service.ts:173-187 | one to three attempts; the result is the last attempt's; every earlier attempt failed non-terminally; a failure is terminal or the third attempt's; the waits are the backoff delays 1000 and 2000 ms in order |
| InvoiceService.FirstAttemptServes | src/lib/services/invoice.service.ts:173-187 | a first retrieval yielding a full invoice page is answered after one call, with no wait, by that page transformed with its kept item pages |
| InvoiceService.MissingPageFetchedOnce | src/lib/services/invoice.service.ts:67-69 | a page the store reports as object_not_found is asked for once and reported as not found, with no wait |
| InvoiceService.ClampPageSize | src/lib/services/invoice.service.ts:240 | the page size is capped at 100 from above and left alone otherwise |
| InvoiceService.CursorArgument | src/lib/services/invoice.service.ts:253 | an empty or absent cursor is not sent; a non-empty one is sent unchanged |
| InvoiceService.ListSortProperty | src/lib/services/invoice.service.ts:243 | the list sorts by issue date exactly when asked for 'issue_date', by total amount otherwise |
| InvoiceService.ListRequest | src/lib/services/invoice.service.ts:250-260 | the list query: capped size, cursor, no filter, one descending sort |
| InvoiceService.StatusMapLookup | src/lib/services/invoice.service.ts:336-345 | `statusMap[status]` gives the Korean label exactly for 'pending', 'approved' and 'rejected', and the label maps back to that status; an `Object.prototype` name gives the inherited member; any other string gives `undefined` |
| InvoiceService.SearchStatusMapAgrees | src/lib/services/invoice.service.ts:336-340 | the search's status map agrees with the label table, and the parser maps each option back to its status |
| InvoiceService.SearchClauses | src/lib/services/invoice.service.ts:315-361 | one clause per non-empty filter, in the order text, status, date range; the status clause's operand is the `statusMap` lookup of the unchecked status string; the date range carries exactly the bounds that are non-empty |
| InvoiceService.SearchRequest | src/lib/services/invoice.service.ts:367-383 | no filter exactly when no clause applies, otherwise the AND of the clauses; always sorted by issue date descending |
| InvoiceService.InvoicePages | src/lib/services/invoice.service.ts:264-266 | only full invoice pages pass, never more than the results |
| InvoiceService.AssembleInvoice | src/lib/services/invoice.service.ts:268-272 | one result page becomes an invoice with the page's id; no relation ids give no items, otherwise the transformed item pages that the failure-tolerant fetch keeps, in id order and never more than the ids |
| InvoiceService.AssemblePage | src/lib/services/invoice.service.ts:263-293 | a failed query gives the fixed error; otherwise one invoice per invoice page in order, each with its page's id, and the cursor and has-more flag passed through |
| InvoiceService.GetInvoicesFromNotion | src/lib/services/invoice.service.ts:233-294 | a failed list query becomes '견적서 목록을 불러올 수 없습니다'; a fulfilled one always succeeds, with the assembled page of the list request |
| InvoiceService.SearchInvoices | src/lib/services/invoice.service.ts:304-418 | a failed search becomes '견적서 검색에 실패했습니다'; a fulfilled one always succeeds, with the assembled page of the search request |
| InvoiceService.InvoicePagesAllKept | src/lib/services/invoice.service.ts:264-266 | results that are all invoice pages all pass the guards, in order |
| InvoiceService.PartialJoinFailureKeepsRecords | src/lib/services/invoice.service.ts:263-272 | failed item joins never cost a record: n invoice pages give n invoices whatever the item retrievals do |
| RateLimit.CeilSeconds | src/lib/rate-limit.ts:90 | the number of whole seconds rounded up: the least r with ms ≤ 1000·r |
| RateLimit.CheckRateLimit | src/lib/rate-limit.ts:68-104 | an unknown or expired identifier starts a window of count 1 with `limit - 1` remaining; a full window is denied unchanged with the time to its end; otherwise the count grows by one and remaining is `limit - count`; other identifiers are untouched |
| RateLimit.Sweep | src/lib/rate-limit.ts:28-35 | the periodic sweep drops exactly the expired records and keeps the others unchanged |
| RateLimit.CheckPreservesValid | src/lib/rate-limit.ts:68-104 | a check keeps every count within 1..limit and every window end within one window of now |
| RateLimit.SweepPreservesValid | src/lib/rate-limit.ts:28-35 | sweeping keeps the table valid |
| RateLimit.RetryAfterBounds | src/lib/rate-limit.ts:89-96 | on a valid table a denial's retry-after lies between 0 and the window in seconds, and is 0 exactly at the reset instant |
| RateLimit.CeilMonotone | src/lib/rate-limit.ts:90 | rounding up to seconds is monotone |
| RateLimit.SweepIsInvisible | src/lib/rate-limit.ts:28-35 | a sweep before a check never changes its answer or the checked record |
| RateLimit.RunChecks | src/lib/rate-limit.ts:68-104 | one answer per call of a sequence of checks |
| RateLimit.InWindowRun | src/lib/rate-limit.ts:88-103 | inside one window, calls are allowed while the count is below the limit, with remaining counting down, and denied with remaining 0 afterwards |
| RateLimit.FixedWindowRun | src/lib/rate-limit.ts:68-104 | a fresh identifier gets `limit` allowed calls in one window, with remaining `limit - 1` down to 0, and the next is denied |
| RateLimit.RetryAfterOnlyOnDenial | src/lib/rate-limit.ts:82-103 | a retry-after value is given exactly on denials |
| RateLimit.WindowResets | src/lib/rate-limit.ts:76-86 | after its reset time an identifier starts a new window with `limit - 1` remaining |
| Middleware.ClientIdentifier | src/middleware.ts:57-60 | the first trimmed x-forwarded-for entry if non-empty, else a non-empty x-real-ip, else 'unknown'; never empty |
| Middleware.ForwardedIdentifierIsOneEntry | src/middleware.ts:58 | an identifier taken from x-forwarded-for holds no comma and starts with no whitespace |
| Middleware.RetryAfterHeader | src/middleware.ts:81 | the Retry-After header is the retry-after value, or '60' when it is absent or 0 |
| Middleware.LimitHeaderValue | src/middleware.ts:15-20 | the limit header reads '10' |
| Middleware.Middleware | src/middleware.ts:34-105 | admin paths pass exactly with a non-empty verified session token and otherwise redirect to '/admin-login', touching no rate record; API paths go through the limiter with limit 10 per 60 s, answering 429 on denial with its headers and the JSON body of the two fixed texts ('요청 한도를 초과했습니다.', '분당 최대 10회 요청 가능합니다.') and the limiter's `retryAfter` and passing with the limit headers otherwise; other paths pass untouched |
| Middleware.AdminNeverRateLimited | src/middleware.ts:36-52 | an admin request is never rate limited and leaves the table unchanged |
| Middleware.MatcherApplies | src/middleware.ts:112-114 | the middleware runs for '/api', '/admin' and every path below either, and for no other path |
| Middleware.LoginPageOutsideMatcher | src/middleware.ts:112-114 | '/admin-login' starts with '/admin', so the middleware would redirect it to itself; the matcher keeps it out |
| Middleware.AllowedRemainingInRange | src/middleware.ts:89-100 | on a valid table an allowed API request reports a remaining count in 0..9 |
| Dedup.Request | src/lib/cache.ts:69-81 | a key already in flight gains a waiter and causes no fetch; a new key starts exactly one fetch and registers it; other keys are untouched |
| Dedup.Settle | src/lib/cache.ts:83-89 | every waiter receives the one outcome, in arrival order, and the key is unregistered, on success and failure alike |
| Dedup.RequestPreservesConsistent | src/lib/cache.ts:52 | registration keeps every pending entry pointing at a fetch of its own key |
| Dedup.SettlePreservesConsistent | src/lib/cache.ts:83-89 | settlement keeps the pending map consistent |
| Dedup.PendingFetchesDistinct | src/lib/cache.ts:52 | two pending keys never share a fetch |
| Dedup.Run | src/lib/cache.ts:69-90 | the fetch log only grows, and every pending key keeps naming a fetch of its own key across any run of requests and settlements |
| Dedup.Requests | src/lib/cache.ts:69 | one request event per caller, in order |
| Dedup.RequestsJoinOneFetch | src/lib/cache.ts:73-81 | callers of a key not in flight cause one fetch and all wait on it |
| Dedup.ConcurrentCallersShareOneFetch | src/lib/cache.ts:62-89 | N concurrent callers of one key cause exactly one fetcher call and all N receive the same outcome, after which the key is no longer pending |
| Dedup.SettledKeyFetchedAgain | src/lib/cache.ts:86-89 | the pending map is not a result cache: a request after settlement fetches again |
| Format.FormatInvoiceStatus | src/lib/format.ts:95-105 | the Korean label of the status, which the parser maps back to the same status |
| Format.FormatInvertsStatusMapping | src/lib/format.ts:95-105 | formatting and the parser's status mapping are inverse on the three labels |
| Format.RemoveStripped | src/lib/format.ts:117 | no '#', '(' or ')' remains |
| Format.DropWhitespace | src/lib/format.ts:118 | removes exactly the leading whitespace run |
| Format.DotsToDashes | src/lib/format.ts:119 | every '.' becomes '-', every other character is kept |
| Format.CollapseWhitespace | src/lib/format.ts:118 | `.replace(/\s+/g, '-')` as a recursion over the string; its properties are stated by `CollapseOutput` (no whitespace remains), `CollapseMaximalRun` (each maximal run becomes one '-') and `CollapseIdentity` (whitespace-free text is unchanged) |
| Format.CollapseOutput | src/lib/format.ts:118 | collapsing whitespace leaves no whitespace and introduces no stripped character |
| Format.SanitizeFilename | src/lib/format.ts:115-121 | the result has no '#', '(', ')', '.', whitespace or ASCII capital |
| Format.RemoveStrippedIdentity | src/lib/format.ts:117 | text without stripped characters is unchanged by stripping |
| Format.CollapseIdentity | src/lib/format.ts:118 | text without whitespace is unchanged by collapsing |
| Format.SanitizeIdempotent | src/lib/format.ts:115-121 | sanitising twice is sanitising once |
| Format.DropWhitespaceAppend | src/lib/format.ts:118 | dropping leading whitespace stops inside a left part that ends in a non-whitespace character |
| Format.DropWhitespaceRun | src/lib/format.ts:118 | a whitespace run is dropped up to the next non-whitespace character |
| Format.CollapseMaximalRun | src/lib/format.ts:118 | a maximal whitespace run between two parts becomes exactly one '-' and the parts are rewritten independently |
| Format.RemoveStrippedAppend | src/lib/format.ts:117 | stripping distributes over concatenation |
| Format.SanitizeKeepsChar | src/lib/format.ts:115-121 | every character that is none of '#', '(', ')', '.', whitespace or an ASCII capital survives sanitising unchanged, Hangul included |
| Format.StripTitleShape | src/lib/format.ts:117 | '<title> #<number> (<date>)' loses its '#', '(' and ')' |
| Format.CollapseTitleShape | src/lib/format.ts:118 | the two single spaces of the stripped title become dashes |
| Format.SanitizeTitleShape | src/lib/format.ts:112-121 | '<title> #<number> (<date>)' becomes '<title>-<number>-<date>', dots as dashes and lower-cased |
| Format.SanitizeExample | src/lib/format.ts:112-113 | the documented example '견적서 #001 (2025.10.07)' becomes '견적서-001-2025-10-07' |
| Env.NodeEnvIssues | src/lib/env.ts:4-6 | an issue exactly when NODE_ENV is set to something other than development, production or test |
| Env.ApiKeyIssues | src/lib/env.ts:14-20 | no issue exactly for a set key starting with 'secret_' or 'ntn_'; an empty key reports both the minimum and the prefix issue |
| Env.DatabaseIdIssues | src/lib/env.ts:21-24 | no issue exactly for a set id of length 32 |
| Env.PasswordIssues | src/lib/env.ts:26-28 | no issue exactly for a set password of length at least 8 |
| Env.SecretIssues | src/lib/env.ts:29-31 | no issue exactly for a set secret of length exactly 32 |
| Env.ParseEnv | src/lib/env.ts:3-43 | parsing succeeds exactly when every rule holds, and otherwise reports every issue of the schema, in field order; on success NODE_ENV defaults to development, the base URL to 'http://localhost:3000', and every other value is passed through |
| Env.LoadEnv | src/lib/env.ts:34-68 | loading succeeds exactly when the schema holds and, in production, the lower-cased password is not one of the five weak ones and the secret does not contain the published default; the weak password is checked before the secret; a success returns the parsed configuration unchanged, and a schema failure reports every issue of the schema |
| Env.IssueIffRuleFails | src/lib/env.ts:3-32 | a field has an issue exactly when its rule fails |
| Env.IssuesInSchemaOrder | src/lib/env.ts:3-32 | issues are reported in schema field order |
| Env.NoSecurityChecksOutsideProduction | src/lib/env.ts:45-68 | outside production loading succeeds exactly when parsing does, with the parsed configuration |
| Env.WeakPasswordIgnoresCase | src/lib/env.ts:56 | the weak-password check ignores case: 'Admin1234' is refused in production |
| Logger.SanitizeContext | src/lib/logger.ts:58-75 | an absent context stays absent; otherwise the same keys, sensitive keys redacted to '[REDACTED]', all other values unchanged |
| Logger.SensitivityIgnoresCase | src/lib/logger.ts:66-69 | sensitivity does not depend on the key's letter case |
| Logger.SensitiveIffKeywordOccurs | src/lib/logger.ts:34-43 | a key is sensitive exactly when one of the eight keywords occurs at some offset of its lower-cased form |
| Logger.SanitizeIdempotent | src/lib/logger.ts:58-75 | sanitising twice is sanitising once |
| Logger.NotSensitiveByMissingChars | src/lib/logger.ts:66-69 | a key that lacks one character of every keyword is not sensitive |
| Logger.NestedKeysNotRedacted | src/lib/logger.ts:65-72 | redaction is shallow: an object under a non-sensitive key is kept whole, sensitive keys inside it included |
| Logger.SanitizeExample | src/lib/logger.ts:52-56 | the documented example redacts apiKey and keeps name |
| PdfRoute.PdfFilename | src/app/api/generate-pdf/route.ts:43 | the file name is 'invoice-', the sanitised number, '.pdf', with no unsafe character in between |
| PdfRoute.ContentDisposition | src/app/api/generate-pdf/route.ts:49 | the value is `attachment; filename="`, then the file name as given, then a closing quote; a name holding `"` is not escaped |
| PdfRoute.HandlePdfRequest | src/app/api/generate-pdf/route.ts:18-60 | 400 with the invalid-data message exactly for a body without a quotation or with an empty number; 500 with the PDF error exactly for an unreadable body, a failed render, or a `Content-Disposition` value the response constructor refuses: a character above U+00FF, NUL, LF or CR; otherwise the rendered bytes as an attachment with the PDF content type and no caching |
| PdfRoute.HeaderRejectedIffBadName | src/app/api/generate-pdf/route.ts:43-52 | the header is refused exactly when the sanitised number holds a refused character, the fixed parts being plain ASCII |
| PdfRoute.HeaderRejectedIffWideOrNul | src/app/api/generate-pdf/route.ts:43-52 | no LF or CR survives sanitising, so the header is refused exactly when the sanitised number holds a character above U+00FF or a NUL |
| PdfRoute.RefusedCharIsServerError | src/app/api/generate-pdf/route.ts:43-58 | a character that sanitising keeps but a header value may not hold makes the route answer 500 |
| PdfRoute.WideNumberIsServerError | src/app/api/generate-pdf/route.ts:43-58 | a number holding a non-whitespace character above U+00FF, such as a Hangul syllable, is answered 500, never with the file |
| PdfRoute.KoreanNumberIsServerError | src/app/api/generate-pdf/route.ts:43-58 | the documented example number '견적서 #001 (2025.10.07)' is answered 500 |
| PdfRoute.NulNumberIsServerError | src/app/api/generate-pdf/route.ts:43-58 | a number holding NUL is answered 500 |
| PdfRoute.ServerAndClientNamesAgree | src/components/invoice/PDFDownloadButton.tsx:60 | the server's file name is the one the download button gives the saved file |
| PdfRoute.InvalidBodyIsNotRendered | src/app/api/generate-pdf/route.ts:24-29 | a refused body is answered without rendering |
| PdfRoute.FilenameDependsOnNumberOnly | src/app/api/generate-pdf/route.ts:43-49 | whether the file is served, and the name it is announced under, depend on the quotation number alone |
| LinkGenerator.GenerateInvoiceUrl | src/lib/utils/link-generator.ts:8-10 | the base URL, '/invoice/', then the id |
| LinkGenerator.InvoiceUrlRoundTrip | src/lib/utils/link-generator.ts:8-10 | the id reads back from its URL, and different ids give different URLs |
| LinkGenerator.GenerateShortUrl | src/lib/utils/link-generator.ts:17-20 | '...' and the id's first min(8, length) characters |
| LinkGenerator.ShortUrlKeepsShortIds | src/lib/utils/link-generator.ts:17-20 | ids of at most 8 characters are shown whole; ids sharing their first 8 characters share a short form |
| MockData.MockItems | src/lib/mock-data.ts:11-49 | five lines with distinct ids, non-empty descriptions, positive quantities and prices, each amount being quantity × unit price |
| MockData.MockInvoice | src/lib/mock-data.ts:55-69 | the sample has the five sample lines, and its total is their sum |
| MockData.Pad3 | src/lib/mock-data.ts:81-82 | `String(n).padStart(3, '0')`: at least three digits whose value is n, with no padding from 100 on |
| MockData.MockInvoices | src/lib/mock-data.ts:76-86 | `count` copies of the sample (none for count ≤ 0), each numbered i+1 in id, number and client name and otherwise equal to the sample |
| MockData.MockItemAmountsAreProducts | src/lib/mock-data.ts:11-49 | every sample line's amount is quantity × unit price |
| MockData.MockTotal | src/lib/mock-data.ts:56-57 | the sample total is 26,000,000 |
| MockData.Pad3Shape | src/lib/mock-data.ts:81-82 | one digit gets two zeros, two digits one zero, three or more none |
| MockData.Pad3Injective | src/lib/mock-data.ts:81-82 | different numbers pad differently |
| MockData.MockIdsDistinct | src/lib/mock-data.ts:76-86 | the generated ids and numbers are pairwise distinct |
| Text.ContainsIffOccurs | src/lib/logger.ts:68 | `includes` holds exactly when the substring occurs at some offset |
| Text.NatToStringRoundTrip | src/lib/mock-data.ts:81 | reading back the decimal rendering of n gives n |
| Text.LeadingZerosValue | src/lib/mock-data.ts:81 | zeros in front do not change a digit string's value |
| Text.PadStart | src/lib/mock-data.ts:81 | the string is kept at the end and preceded by fill characters up to the width |
| Text.BeforeComma | src/middleware.ts:58 | `split(',')[0]`: the prefix before the first comma, holding no comma |
| Text.Trim | src/middleware.ts:58 | the result is the part of the input between a whitespace prefix and a whitespace suffix, and neither starts nor ends with whitespace |
| Text.Utf16Length | src/lib/env.ts:16-31 | the JavaScript length of one character is 2 above U+FFFF and 1 otherwise; it equals the number of code points exactly when no character is above U+FFFF |
| Text.Utf16LengthAppend | src/lib/env.ts:16-31 | the length of a concatenation is the sum of the lengths, so with the one-character case it is fixed for every string |

## Left out

- `createCachedInvoiceFetcher` (`unstable_cache`, 60 s revalidation, tag 'invoice') and `getOptimizedInvoice`: the framework cache is not modelled; only the in-flight deduplication beneath it is.
- Network calls, `getDataSourceId` and the SDK client (`src/lib/notion.ts`) are replaced by the `Retrieve` and `DataSource` oracles.
- Timers: `setTimeout`, `setInterval` and `Date.now()` are not modelled. Waits are returned as a list, the sweep is a function, and time is an argument.
- Date arithmetic (`getDefaultValidUntil`, `new Date().toISOString()`, `normalizeDate`, `formatDate`) is the `Calendar` oracle or not modelled, because it depends on the clock and on locale data.
- `formatCurrency` and `Intl` number formatting: locale data is not modelled.
- `parseNumber`: floating-point parsing is not modelled; amounts are whole won.
- Format.FormatInvoiceStatus: takes only the three statuses. The `|| status` fallback of `formatInvoiceStatus` is reached only when an invoice's `status` is an inherited `Object.prototype` member (see `NotionParser.MapKoreanStatus`), which the invoice header passes to it and which it then returns unchanged; that path through the view is not modelled.
- NotionParser.NumberOr: numbers are integers, so NaN and fractional values are not modelled.
- Middleware.Middleware: JWT verification (`jwtVerify` with SESSION_SECRET) is the `verifyToken` oracle; sessions, cookies and the login actions are not modelled.
- Env.ParseEnv: does not check the `.url()` format of NEXT_PUBLIC_APP_URL and NEXT_PUBLIC_BASE_URL, because URL parsing is outside the model. Zod's issue texts for unset values and bad enum members are abstracted to `Required` and `InvalidEnum`.
- Env.LoadEnv: reading `process.env` is replaced by an `EnvInput` argument, and the thrown errors are `EnvError` values.
- Logger: writing entries, `serializeError` and the `info`/`warn`/`error` functions are console I/O and are not modelled; only `sanitizeContext` is.
- Text.ToLower: lower-cases ASCII only, because full Unicode case mapping needs tables outside the model. This affects `sanitizeFilename`, the weak-password check and key sensitivity.
- LinkGenerator.GenerateShortUrl: counts characters, not UTF-16 code units, for ids outside the basic multilingual plane.
- Retry.WithRetry: `maxRetries` is an integer; fractional values are not modelled.
- InvoiceService.AttemptInvoice: a throw from inside `transformNotionToInvoice` is not modelled, because the transformation is total over the modelled page shapes.
- InvoiceService.StatusMapLookup: how the SDK serialises an `undefined` or function operand in the request body is not modelled; the `DataSource` oracle receives the operand as the service builds it.
- PdfRoute.HandlePdfRequest: JSON body parsing is abstracted to `RequestBody` (unparsable, `null`, or an object with an optional invoice); invoice fields of the wrong JSON type are not modelled.
- Concurrency: `Promise.all`, `Promise.allSettled` and concurrent callers are modelled as ordered sequences and event lists, which is sound because every step between awaits is atomic on the single-threaded runtime.
- The React pages and components, the PDF template and the login flow are presentation and are not modelled.

=== FILE: constants.dfy ===
/** Application-wide constants (src/lib/constants.ts) and the error values built from them. */
module Constants {
  import opened Wrappers
  import opened Domain

  /** `INVOICE_STATUS`: the wire value of each status. */
  function StatusValue(s: InvoiceStatus): string {
    match s
    case Pending => "pending"
    case Approved => "approved"
    case Rejected => "rejected"
  }

  /** `INVOICE_STATUS_LABELS`: the Korean label stored in the document store. */
  function StatusLabel(s: InvoiceStatus): string {
    match s
    case Pending => "대기"
    case Approved => "승인"
    case Rejected => "거절"
  }

  /** The property names every plain object literal inherits from `Object.prototype`
      (section 20.1.3 of ECMA-262, with the Annex B accessors). */
  predicate IsObjectPrototypeMember(name: string) {
    name in {"constructor", "hasOwnProperty", "isPrototypeOf", "propertyIsEnumerable",
             "toLocaleString", "toString", "valueOf", "__proto__",
             "__defineGetter__", "__defineSetter__", "__lookupGetter__", "__lookupSetter__"}
  }

  /** The outcome of indexing an object literal with a string: an own entry, a member
      inherited from `Object.prototype`, or `undefined`. */
  datatype Lookup = Own(status: InvoiceStatus) | Inherited(member: string) | Missing

  /** `KOREAN_TO_STATUS_MAP[label]`: the table is a plain object, so besides its three
      own entries it answers every inherited member name. */
  function KoreanToStatus(koreanLabel: string): (r: Lookup)
    ensures r.Own? ==> StatusLabel(r.status) == koreanLabel
    ensures r.Inherited? <==> IsObjectPrototypeMember(koreanLabel)
    ensures r.Inherited? ==> r.member == koreanLabel
    ensures r.Missing? ==> !IsObjectPrototypeMember(koreanLabel) && forall s: InvoiceStatus :: StatusLabel(s) != koreanLabel
  {
    if koreanLabel == "대기" then Own(Pending)
    else if koreanLabel == "승인" then Own(Approved)
    else if koreanLabel == "거절" then Own(Rejected)
    else if IsObjectPrototypeMember(koreanLabel) then Inherited(koreanLabel)
    else Missing
  }

  /** The label table and the reverse lookup table are mutual inverses. */
  lemma LabelTablesInverse(s: InvoiceStatus, koreanLabel: string)
    ensures KoreanToStatus(StatusLabel(s)) == Own(s)
    ensures KoreanToStatus(koreanLabel) == Own(s) <==> StatusLabel(s) == koreanLabel
  {
  }

  /** `INVOICE_STATUS` has exactly the three values, one per status. */
  lemma StatusValuesExact()
    ensures (set s: InvoiceStatus | true :: StatusValue(s)) == {"pending", "approved", "rejected"}
    ensures forall s, t: InvoiceStatus :: StatusValue(s) == StatusValue(t) ==> s == t
  {
    var all := set s: InvoiceStatus | true :: StatusValue(s);
    assert StatusValue(Pending) in all && StatusValue(Approved) in all && StatusValue(Rejected) in all;
  }

  /** The keys of `ERROR_MESSAGES`. */
  datatype ErrorKind = InvoiceNotFound | NotionApiError | PdfGenerationError | InvalidInvoiceData | MissingRequiredField

  /** `ERROR_MESSAGES`: the user-facing text of each error kind. */
  function ErrorMessage(k: ErrorKind): string {
    match k
    case InvoiceNotFound => "견적서를 찾을 수 없습니다."
    case NotionApiError => "Notion API 연결 오류가 발생했습니다."
    case PdfGenerationError => "PDF 생성 중 오류가 발생했습니다."
    case InvalidInvoiceData => "유효하지 않은 견적서 데이터입니다."
    case MissingRequiredField => "필수 필드가 누락되었습니다."
  }

  /** `Object.values(ERROR_MESSAGES).includes(message)`, answered with the matching kind. */
  function ErrorKindOf(message: string): (r: Option<ErrorKind>)
    ensures r.Some? ==> ErrorMessage(r.value) == message
    ensures r.None? ==> forall k: ErrorKind :: ErrorMessage(k) != message
  {
    if message == ErrorMessage(InvoiceNotFound) then Some(InvoiceNotFound)
    else if message == ErrorMessage(NotionApiError) then Some(NotionApiError)
    else if message == ErrorMessage(PdfGenerationError) then Some(PdfGenerationError)
    else if message == ErrorMessage(InvalidInvoiceData) then Some(InvalidInvoiceData)
    else if message == ErrorMessage(MissingRequiredField) then Some(MissingRequiredField)
    else None
  }

  predicate IsErrorMessage(message: string) {
    ErrorKindOf(message).Some?
  }

  /** The messages are pairwise distinct, so classifying an error by its message is unambiguous. */
  lemma ErrorMessagesDistinct(k1: ErrorKind, k2: ErrorKind)
    ensures ErrorMessage(k1) == ErrorMessage(k2) ==> k1 == k2
    ensures ErrorKindOf(ErrorMessage(k1)) == Some(k1)
  {
  }

  /** `PDF_CONFIG.FILENAME_PREFIX`. */
  const PdfFilenamePrefix: string := "invoice"

  /** A thrown JavaScript error: the provider's `code`, if any, and its `message`
      (the empty message stands for an absent one). */
  datatype Error = Error(code: Option<string>, message: string)

  /** `new Error(ERROR_MESSAGES[k])`. */
  function Raise(k: ErrorKind): (e: Error)
    ensures e.code.None? && ErrorKindOf(e.message) == Some(k)
  {
    Error(None, ErrorMessage(k))
  }
}

=== FILE: dedup.dfy ===
/** In-flight request deduplication (`getInvoiceWithDedup` and `pendingRequests` in
    src/lib/cache.ts) as a sequential event model. A request either joins the pending
    fetch for its key or starts one; a settlement hands the one outcome to every
    waiting caller and unregisters the key. */
module Dedup {
  import opened Wrappers
  import opened Constants

  /** A fetch in flight: its index in the fetch log and the callers waiting on it, in arrival order. */
  datatype Flight = Flight(fetchId: nat, waiters: seq<nat>)

  /** The pending map and the log of every fetcher invocation (the key each was for). */
  datatype DedupState = DedupState(pending: map<string, Flight>, fetches: seq<string>)

  /** One caller receiving the shared outcome. */
  datatype Delivery<T> = Delivery(caller: nat, outcome: Result<T, Error>)

  datatype Settlement<T> = Settlement(deliveries: seq<Delivery<T>>, state: DedupState)

  const Initial: DedupState := DedupState(map[], [])

  /** Every pending entry names a fetch of its own key. */
  predicate Consistent(s: DedupState) {
    forall k :: k in s.pending ==> s.pending[k].fetchId < |s.fetches| && s.fetches[s.pending[k].fetchId] == k
  }

  /** A call `getInvoiceWithDedup(key)` by `caller`: the check and the registration
      happen in one step. */
  function Request(s: DedupState, key: string, caller: nat): (s': DedupState)
    ensures key in s'.pending
    ensures forall k :: k != key ==> (k in s'.pending <==> k in s.pending)
    ensures forall k :: k != key && k in s.pending ==> s'.pending[k] == s.pending[k]
    ensures key in s.pending ==>
              s'.fetches == s.fetches
              && s'.pending[key] == Flight(s.pending[key].fetchId, s.pending[key].waiters + [caller])
    ensures key !in s.pending ==>
              s'.fetches == s.fetches + [key] && s'.pending[key] == Flight(|s.fetches|, [caller])
  {
    if key in s.pending then
      var f := s.pending[key];
      DedupState(s.pending[key := Flight(f.fetchId, f.waiters + [caller])], s.fetches)
    else
      DedupState(s.pending[key := Flight(|s.fetches|, [caller])], s.fetches + [key])
  }

  /** The fetch for `key` settles with `outcome`: each waiter receives it and the key is
      removed, whether the outcome is a success or a failure. */
  function Settle<T>(s: DedupState, key: string, outcome: Result<T, Error>): (r: Settlement<T>)
    ensures key !in r.state.pending
    ensures r.state.fetches == s.fetches
    ensures forall k :: k != key ==> (k in r.state.pending <==> k in s.pending)
    ensures forall k :: k != key && k in s.pending ==> r.state.pending[k] == s.pending[k]
    ensures key in s.pending ==>
              |r.deliveries| == |s.pending[key].waiters|
              && forall i :: 0 <= i < |r.deliveries| ==> r.deliveries[i] == Delivery(s.pending[key].waiters[i], outcome)
    ensures key !in s.pending ==> r == Settlement([], s)
  {
    if key in s.pending then
      var waiters := s.pending[key].waiters;
      Settlement(seq(|waiters|, i requires 0 <= i < |waiters| => Delivery(waiters[i], outcome)),
                 DedupState(s.pending - {key}, s.fetches))
    else
      Settlement([], s)
  }

  lemma RequestPreservesConsistent(s: DedupState, key: string, caller: nat)
    requires Consistent(s)
    ensures Consistent(Request(s, key, caller))
  {
  }

  lemma SettlePreservesConsistent<T>(s: DedupState, key: string, outcome: Result<T, Error>)
    requires Consistent(s)
    ensures Consistent(Settle(s, key, outcome).state)
  {
  }

  /** Two pending keys never share a fetch: at most one fetch per key is in flight and
      no fetch serves two keys. */
  lemma PendingFetchesDistinct(s: DedupState, k1: string, k2: string)
    requires Consistent(s) && k1 in s.pending && k2 in s.pending && k1 != k2
    ensures s.pending[k1].fetchId != s.pending[k2].fetchId
  {
  }

  datatype Event<T> = Req(key: string, caller: nat) | Done(key: string, outcome: Result<T, Error>)

  /** Runs events in order, collecting every delivery. The fetch log only grows, and a
      consistent pending map stays consistent. */
  function Run<T>(s: DedupState, events: seq<Event<T>>): (r: Settlement<T>)
    ensures |s.fetches| <= |r.state.fetches|
    ensures r.state.fetches[..|s.fetches|] == s.fetches
    ensures Consistent(s) ==> Consistent(r.state)
    decreases |events|
  {
    if events == [] then Settlement([], s)
    else
      var before := Run(s, events[..|events| - 1]);
      match events[|events| - 1]
      case Req(k, c) => Settlement(before.deliveries, Request(before.state, k, c))
      case Done(k, o) =>
        var st := Settle(before.state, k, o);
        Settlement(before.deliveries + st.deliveries, st.state)
  }

  /** The request events of several callers for one key. */
  function Requests<T>(key: string, callers: seq<nat>): (es: seq<Event<T>>)
    ensures |es| == |callers|
    ensures forall i :: 0 <= i < |es| ==> es[i] == Req(key, callers[i])
  {
    seq(|callers|, i requires 0 <= i < |callers| => Req(key, callers[i]))
  }

  /** While a key's fetch is in flight, concurrent callers only join it. */
  lemma {:induction false} RequestsJoinOneFetch<T>(s: DedupState, key: string, callers: seq<nat>)
    requires key !in s.pending && callers != []
    ensures JoinedOneFetch(s, key, callers, Run<T>(s, Requests<T>(key, callers)))
    decreases |callers|
  {
    var n := |callers|;
    var events := Requests<T>(key, callers);
    assert events[..n - 1] == Requests<T>(key, callers[..n - 1]);
    RunRequestStep(s, events, key, callers[n - 1]);
    if n > 1 {
      RequestsJoinOneFetch<T>(s, key, callers[..n - 1]);
      JoinStep(s, key, callers, Run<T>(s, events[..n - 1]));
    } else {
      assert events[..n - 1] == [];
      assert callers == [callers[0]];
    }
  }

  /** After the requests of `callers`, nothing was delivered, one fetch was started for
      `key`, and every caller waits on it. */
  predicate JoinedOneFetch<T>(s: DedupState, key: string, callers: seq<nat>, r: Settlement<T>) {
    && r.deliveries == []
    && r.state.fetches == s.fetches + [key]
    && r.state.pending == s.pending[key := Flight(|s.fetches|, callers)]
  }

  /** One more caller joins the fetch already registered for the earlier callers. */
  lemma JoinStep<T>(s: DedupState, key: string, callers: seq<nat>, before: Settlement<T>)
    requires |callers| > 1
    requires JoinedOneFetch(s, key, callers[..|callers| - 1], before)
    ensures JoinedOneFetch(s, key, callers,
                           Settlement(before.deliveries, Request(before.state, key, callers[|callers| - 1])))
  {
    var n := |callers|;
    assert callers[..n - 1] + [callers[n - 1]] == callers;
  }

  /** A run ending in a request is the run before it followed by that request. */
  lemma RunRequestStep<T>(s: DedupState, events: seq<Event<T>>, key: string, caller: nat)
    requires events != [] && events[|events| - 1] == Req(key, caller)
    ensures var before := Run(s, events[..|events| - 1]);
            Run(s, events) == Settlement(before.deliveries, Request(before.state, key, caller))
  {
  }

  /** N callers asking for one key before its fetch settles cause exactly one fetcher
      call, and all N receive the same outcome, success or failure. */
  lemma ConcurrentCallersShareOneFetch<T>(s: DedupState, key: string, callers: seq<nat>, outcome: Result<T, Error>)
    requires key !in s.pending && callers != []
    ensures var r := Run<T>(s, Requests<T>(key, callers) + [Done(key, outcome)]);
            && r.state.fetches == s.fetches + [key]
            && |r.deliveries| == |callers|
            && (forall i :: 0 <= i < |callers| ==> r.deliveries[i] == Delivery(callers[i], outcome))
            && r.state.pending == s.pending
  {
    var events := Requests<T>(key, callers) + [Done(key, outcome)];
    assert events[..|events| - 1] == Requests<T>(key, callers);
    RequestsJoinOneFetch<T>(s, key, callers);
    var mid := Run<T>(s, Requests<T>(key, callers));
    assert mid.state.pending[key := Flight(|s.fetches|, callers)] - {key} == s.pending by {
      assert mid.state.pending - {key} == s.pending;
    }
  }

  /** The pending map is not a result cache: a request after settlement starts a new fetch. */
  lemma SettledKeyFetchedAgain<T>(s: DedupState, key: string, outcome: Result<T, Error>, caller: nat)
    ensures var after := Settle(s, key, outcome).state;
            Request(after, key, caller).fetches == s.fetches + [key]
  {
  }
}

=== FILE: domain.dfy ===
/** The business domain values a quotation viewer works with (src/types/invoice.ts). */
module Domain {

  /** The three states of a quotation. */
  datatype InvoiceStatus = Pending | Approved | Rejected

  /** What the parser stores in `status`: one of the three states, or, for a store label
      that names a member of `Object.prototype`, that inherited member, which is truthy
      and not a status. */
  datatype StatusField = Status(status: InvoiceStatus) | InheritedMember(name: string)

  /** One line of a quotation. Amounts are whole won: KRW has no minor units. */
  datatype InvoiceItem = InvoiceItem(
    id: string,
    description: string,
    quantity: int,
    unitPrice: int,
    amount: int)

  /** A quotation as shown to a client. Dates are ISO calendar-date strings. */
  datatype Invoice = Invoice(
    id: string,
    invoiceNumber: string,
    clientName: string,
    issueDate: string,
    validUntil: string,
    items: seq<InvoiceItem>,
    totalAmount: int,
    status: StatusField)

  /** The sum of the amounts of a sequence of lines. */
  function SumAmounts(items: seq<InvoiceItem>): int
  {
    if items == [] then 0 else SumAmounts(items[..|items| - 1]) + items[|items| - 1].amount
  }
}

=== FILE: env.dfy ===
/** Configuration validation (src/lib/env.ts): the `envSchema` rules applied to the
    process environment, then the production-only security checks. Reading
    `process.env` is replaced by an `EnvInput` argument. */
module Env {
  import opened Wrappers
  import opened Text

  datatype NodeEnv = Development | Production | Test

  /** The raw environment: every variable may be unset. */
  datatype EnvInput = EnvInput(
    nodeEnv: Option<string>,
    vercelUrl: Option<string>,
    appUrl: Option<string>,
    baseUrl: Option<string>,
    notionApiKey: Option<string>,
    notionDatabaseId: Option<string>,
    adminPassword: Option<string>,
    sessionSecret: Option<string>)

  /** The parsed configuration. */
  datatype Config = Config(
    nodeEnv: NodeEnv,
    vercelUrl: Option<string>,
    appUrl: Option<string>,
    baseUrl: string,
    notionApiKey: string,
    notionDatabaseId: string,
    adminPassword: string,
    sessionSecret: string)

  /** The schema fields that can fail, in schema order. */
  datatype Field = NodeEnvField | NotionApiKeyField | NotionDatabaseIdField | AdminPasswordField | SessionSecretField

  function FieldRank(f: Field): nat {
    match f
    case NodeEnvField => 0
    case NotionApiKeyField => 1
    case NotionDatabaseIdField => 2
    case AdminPasswordField => 3
    case SessionSecretField => 4
  }

  /** A validation issue: an unset required variable, a value outside the enum, or a
      failed check with the schema's own message. */
  datatype IssueKind = Required | InvalidEnum | Check(message: string)
  datatype Issue = Issue(field: Field, kind: IssueKind)

  datatype EnvError = InvalidSchema(issues: seq<Issue>) | WeakPassword | DefaultSecret

  const DefaultBaseUrl := "http://localhost:3000"
  const ApiKeyRequiredMessage := "NOTION_API_KEY는 필수입니다"
  const ApiKeyPrefixMessage := "NOTION_API_KEY는 \"secret_\" 또는 \"ntn_\"로 시작해야 합니다"
  const DatabaseIdRequiredMessage := "NOTION_DATABASE_ID는 필수입니다"
  const DatabaseIdLengthMessage := "NOTION_DATABASE_ID는 32자여야 합니다"
  const PasswordLengthMessage := "관리자 비밀번호는 최소 8자 이상이어야 합니다"
  const SecretLengthMessage := "SESSION_SECRET은 정확히 32자여야 합니다"
  const WeakPasswordMessage := "프로덕션 환경에서 약한 기본 비밀번호를 사용할 수 없습니다. 강력한 비밀번호로 변경하세요."
  const DefaultSecretMessage := "프로덕션 환경에서 기본 SESSION_SECRET을 사용할 수 없습니다. 새로운 시크릿 키를 생성하세요."

  const WeakPasswords: seq<string> := ["admin1234", "admin123", "password", "12345678", "qwerty123"]
  const DefaultSecretFragment := "AlwrgLHiQyGEx01dnwmuPc0V"

  // ---- The rules, stated once as predicates ----

  function NodeEnvOf(v: string): Option<NodeEnv> {
    if v == "development" then Some(Development)
    else if v == "production" then Some(Production)
    else if v == "test" then Some(Test)
    else None
  }

  /** Exactly the literal "production" selects production, whether or not `NODE_ENV` is set. */
  lemma ProductionIffLiteral(v: Option<string>)
    ensures NodeEnvOf(v.GetOr("development")) == Some(Production) <==> v == Some("production")
    ensures (v.Some? && NodeEnvOf(v.value) == Some(Production)) <==> v == Some("production")
  {
    assert NodeEnvOf("development") == Some(Development);
  }

  predicate NodeEnvValid(v: Option<string>) {
    v.None? || NodeEnvOf(v.value).Some?
  }

  predicate ApiKeyValid(k: string) {
    k != [] && (StartsWith(k, "secret_") || StartsWith(k, "ntn_"))
  }

  predicate DatabaseIdValid(d: string) {
    Utf16Length(d) == 32
  }

  predicate PasswordValid(p: string) {
    Utf16Length(p) >= 8
  }

  predicate SecretValid(s: string) {
    Utf16Length(s) == 32
  }

  predicate FieldValid(input: EnvInput, f: Field) {
    match f
    case NodeEnvField => NodeEnvValid(input.nodeEnv)
    case NotionApiKeyField => input.notionApiKey.Some? && ApiKeyValid(input.notionApiKey.value)
    case NotionDatabaseIdField => input.notionDatabaseId.Some? && DatabaseIdValid(input.notionDatabaseId.value)
    case AdminPasswordField => input.adminPassword.Some? && PasswordValid(input.adminPassword.value)
    case SessionSecretField => input.sessionSecret.Some? && SecretValid(input.sessionSecret.value)
  }

  predicate SchemaValid(input: EnvInput) {
    NodeEnvValid(input.nodeEnv)
    && input.notionApiKey.Some? && ApiKeyValid(input.notionApiKey.value)
    && input.notionDatabaseId.Some? && DatabaseIdValid(input.notionDatabaseId.value)
    && input.adminPassword.Some? && PasswordValid(input.adminPassword.value)
    && input.sessionSecret.Some? && SecretValid(input.sessionSecret.value)
  }

  predicate AllAbout(issues: seq<Issue>, f: Field) {
    forall i :: 0 <= i < |issues| ==> issues[i].field == f
  }

  // ---- Field-by-field issue collection, as zod reports it ----

  function NodeEnvIssues(v: Option<string>): (r: seq<Issue>)
    ensures AllAbout(r, NodeEnvField)
    ensures r == [] <==> NodeEnvValid(v)
  {
    if NodeEnvValid(v) then [] else [Issue(NodeEnvField, InvalidEnum)]
  }

  /** `.min(1, …)` and the prefix `.refine(…)` both run, so an empty key reports two issues. */
  function ApiKeyIssues(v: Option<string>): (r: seq<Issue>)
    ensures AllAbout(r, NotionApiKeyField)
    ensures r == [] <==> v.Some? && ApiKeyValid(v.value)
    ensures v == Some("") ==> |r| == 2
  {
    match v
    case None => [Issue(NotionApiKeyField, Required)]
    case Some(k) =>
      (if Utf16Length(k) < 1 then [Issue(NotionApiKeyField, Check(ApiKeyRequiredMessage))] else [])
      + (if StartsWith(k, "secret_") || StartsWith(k, "ntn_") then []
         else [Issue(NotionApiKeyField, Check(ApiKeyPrefixMessage))])
  }

  function DatabaseIdIssues(v: Option<string>): (r: seq<Issue>)
    ensures AllAbout(r, NotionDatabaseIdField)
    ensures r == [] <==> v.Some? && DatabaseIdValid(v.value)
  {
    match v
    case None => [Issue(NotionDatabaseIdField, Required)]
    case Some(d) =>
      (if Utf16Length(d) < 1 then [Issue(NotionDatabaseIdField, Check(DatabaseIdRequiredMessage))] else [])
      + (if Utf16Length(d) != 32 then [Issue(NotionDatabaseIdField, Check(DatabaseIdLengthMessage))] else [])
  }

  function PasswordIssues(v: Option<string>): (r: seq<Issue>)
    ensures AllAbout(r, AdminPasswordField)
    ensures r == [] <==> v.Some? && PasswordValid(v.value)
  {
    match v
    case None => [Issue(AdminPasswordField, Required)]
    case Some(p) => if Utf16Length(p) < 8 then [Issue(AdminPasswordField, Check(PasswordLengthMessage))] else []
  }

  function SecretIssues(v: Option<string>): (r: seq<Issue>)
    ensures AllAbout(r, SessionSecretField)
    ensures r == [] <==> v.Some? && SecretValid(v.value)
  {
    match v
    case None => [Issue(SessionSecretField, Required)]
    case Some(s) => if Utf16Length(s) != 32 then [Issue(SessionSecretField, Check(SecretLengthMessage))] else []
  }

  /** Every issue of the schema, fields in schema order. */
  function SchemaIssues(input: EnvInput): seq<Issue> {
    NodeEnvIssues(input.nodeEnv) + ApiKeyIssues(input.notionApiKey) + DatabaseIdIssues(input.notionDatabaseId)
    + PasswordIssues(input.adminPassword) + SecretIssues(input.sessionSecret)
  }

  /** `envSchema.parse`: the configuration with its defaults, or every issue found. */
  function ParseEnv(input: EnvInput): (r: Result<Config, seq<Issue>>)
    ensures r.Success? <==> SchemaValid(input)
    ensures r.Failure? ==> r.error != []
    ensures r.Failure? ==> r.error == SchemaIssues(input)
    ensures r.Success? ==>
      && r.value.nodeEnv == (if input.nodeEnv.None? then Development else NodeEnvOf(input.nodeEnv.value).value)
      && r.value.baseUrl == input.baseUrl.GetOr(DefaultBaseUrl)
      && r.value.vercelUrl == input.vercelUrl && r.value.appUrl == input.appUrl
      && Some(r.value.notionApiKey) == input.notionApiKey
      && Some(r.value.notionDatabaseId) == input.notionDatabaseId
      && Some(r.value.adminPassword) == input.adminPassword
      && Some(r.value.sessionSecret) == input.sessionSecret
  {
    var issues := SchemaIssues(input);
    if issues != [] then Failure(issues)
    else
      Success(Config(
        if input.nodeEnv.None? then Development else NodeEnvOf(input.nodeEnv.value).value,
        input.vercelUrl, input.appUrl, input.baseUrl.GetOr(DefaultBaseUrl),
        input.notionApiKey.value, input.notionDatabaseId.value,
        input.adminPassword.value, input.sessionSecret.value))
  }

  predicate IsWeakPassword(p: string) {
    ToLower(p) in WeakPasswords
  }

  predicate HasDefaultSecret(s: string) {
    Contains(s, DefaultSecretFragment)
  }

  /** Loading the module: parse, then in production refuse a weak password and then a
      secret containing the published default. */
  function LoadEnv(input: EnvInput): (r: Result<Config, EnvError>)
    ensures r.Success? <==>
      SchemaValid(input)
      && (NodeEnvOf(input.nodeEnv.GetOr("development")) == Some(Production) ==>
            !IsWeakPassword(input.adminPassword.value) && !HasDefaultSecret(input.sessionSecret.value))
    ensures r == Failure(WeakPassword) <==>
      SchemaValid(input) && input.nodeEnv == Some("production") && IsWeakPassword(input.adminPassword.value)
    ensures r == Failure(DefaultSecret) <==>
      SchemaValid(input) && input.nodeEnv == Some("production")
      && !IsWeakPassword(input.adminPassword.value) && HasDefaultSecret(input.sessionSecret.value)
    ensures r.Success? ==> r.value == ParseEnv(input).value
    ensures !SchemaValid(input) ==> r == Failure(InvalidSchema(SchemaIssues(input)))
  {
    ProductionIffLiteral(input.nodeEnv);
    var parsed := ParseEnv(input);
    if parsed.Failure? then Result<Config, EnvError>.Failure(InvalidSchema(parsed.error))
    else if parsed.value.nodeEnv == Production && IsWeakPassword(parsed.value.adminPassword) then Failure(WeakPassword)
    else if parsed.value.nodeEnv == Production && HasDefaultSecret(parsed.value.sessionSecret) then Failure(DefaultSecret)
    else Success(parsed.value)
  }

  // ---- Properties ----

  /** A field has an issue exactly when its rule fails. */
  lemma IssueIffRuleFails(input: EnvInput, f: Field)
    ensures (exists i :: 0 <= i < |SchemaIssues(input)| && SchemaIssues(input)[i].field == f)
            <==> !FieldValid(input, f)
  {
    var a, b, c := NodeEnvIssues(input.nodeEnv), ApiKeyIssues(input.notionApiKey), DatabaseIdIssues(input.notionDatabaseId);
    var d, e := PasswordIssues(input.adminPassword), SecretIssues(input.sessionSecret);
    MentionsAppend(a, b, f);
    MentionsAppend(a + b, c, f);
    MentionsAppend(a + b + c, d, f);
    MentionsAppend(a + b + c + d, e, f);
    MentionsOwnField(a, NodeEnvField, f);
    MentionsOwnField(b, NotionApiKeyField, f);
    MentionsOwnField(c, NotionDatabaseIdField, f);
    MentionsOwnField(d, AdminPasswordField, f);
    MentionsOwnField(e, SessionSecretField, f);
    assert SchemaIssues(input) == a + b + c + d + e;
    assert Mentions(SchemaIssues(input), f) <==> !FieldValid(input, f);
  }

  /** Some issue of the list is about `f`. */
  predicate Mentions(issues: seq<Issue>, f: Field) {
    exists i :: 0 <= i < |issues| && issues[i].field == f
  }

  lemma MentionsAppend(x: seq<Issue>, y: seq<Issue>, f: Field)
    ensures Mentions(x + y, f) <==> Mentions(x, f) || Mentions(y, f)
  {
    if Mentions(x + y, f) {
      var i :| 0 <= i < |x + y| && (x + y)[i].field == f;
      if i >= |x| {
        assert y[i - |x|] == (x + y)[i];
      }
    }
    if Mentions(x, f) {
      var i :| 0 <= i < |x| && x[i].field == f;
      assert (x + y)[i] == x[i];
    }
    if Mentions(y, f) {
      var i :| 0 <= i < |y| && y[i].field == f;
      assert (x + y)[|x| + i] == y[i];
    }
  }

  /** A list of issues all about `g` mentions `f` exactly when it is non-empty and `f` is `g`. */
  lemma MentionsOwnField(issues: seq<Issue>, g: Field, f: Field)
    requires AllAbout(issues, g)
    ensures Mentions(issues, f) <==> issues != [] && f == g
  {
    if issues != [] && f == g {
      assert issues[0].field == f;
    }
  }

  /** Issues are reported in schema order. */
  lemma IssuesInSchemaOrder(input: EnvInput)
    ensures forall i, j :: 0 <= i < j < |SchemaIssues(input)| ==>
              FieldRank(SchemaIssues(input)[i].field) <= FieldRank(SchemaIssues(input)[j].field)
  {
    var a, b, c := NodeEnvIssues(input.nodeEnv), ApiKeyIssues(input.notionApiKey), DatabaseIdIssues(input.notionDatabaseId);
    var d, e := PasswordIssues(input.adminPassword), SecretIssues(input.sessionSecret);
    var all := SchemaIssues(input);
    assert all == a + b + c + d + e;
    forall i | 0 <= i < |all|
      ensures FieldRank(all[i].field) == (if i < |a| then 0 else if i < |a| + |b| then 1
                                          else if i < |a| + |b| + |c| then 2
                                          else if i < |a| + |b| + |c| + |d| then 3 else 4)
    {
      if i < |a| { assert all[i] == a[i]; }
      else if i < |a| + |b| { assert all[i] == b[i - |a|]; }
      else if i < |a| + |b| + |c| { assert all[i] == c[i - |a| - |b|]; }
      else if i < |a| + |b| + |c| + |d| { assert all[i] == d[i - |a| - |b| - |c|]; }
      else { assert all[i] == e[i - |a| - |b| - |c| - |d|]; }
    }
  }

  /** Outside production the security checks are not applied: loading succeeds exactly
      when the schema does. */
  lemma NoSecurityChecksOutsideProduction(input: EnvInput)
    requires input.nodeEnv != Some("production")
    ensures LoadEnv(input).Success? <==> ParseEnv(input).Success?
    ensures ParseEnv(input).Success? ==> LoadEnv(input) == Success(ParseEnv(input).value)
  {
  }

  /** The weak-password check ignores ASCII case: "Admin1234" is refused in production. */
  lemma WeakPasswordIgnoresCase(input: EnvInput)
    requires SchemaValid(input)
    requires input.nodeEnv == Some("production") && input.adminPassword == Some("Admin1234")
    ensures LoadEnv(input) == Failure(WeakPassword)
  {
    LowerOfAdmin();
    assert IsWeakPassword("Admin1234");
  }

  lemma LowerOfAdmin()
    ensures ToLower("Admin1234") == "admin1234"
  {
  }

  /** Only code units outside the basic multilingual plane count twice. */
  lemma {:induction false} Utf16LengthOfBmp(s: string)
    requires forall i :: 0 <= i < |s| ==> s[i] as int <= 0xFFFF
    ensures Utf16Length(s) == |s|
    decreases |s|
  {
    if s != [] {
      Utf16LengthOfBmp(s[1..]);
    }
  }
}

=== FILE: format.dfy ===
/** Display helpers (src/lib/format.ts): status labels and file-name sanitising. */
module Format {
  import opened Domain
  import opened Constants
  import opened Text
  import NotionParser

  /** `formatInvoiceStatus`: the Korean label of a status. */
  function FormatInvoiceStatus(status: InvoiceStatus): (r: string)
    ensures r == StatusLabel(status)
    ensures NotionParser.MapKoreanStatus(Wrappers.Some(r)) == Status(status)
  {
    match status
    case Pending => "대기"
    case Approved => "승인"
    case Rejected => "거절"
  }

  /** `formatInvoiceStatus` and the parser's status mapping are inverse on the three labels. */
  lemma FormatInvertsStatusMapping(status: InvoiceStatus, koreanLabel: string)
    ensures NotionParser.MapKoreanStatus(Wrappers.Some(FormatInvoiceStatus(status))) == Status(status)
    ensures koreanLabel in {"대기", "승인", "거절"} ==>
              && NotionParser.MapKoreanStatus(Wrappers.Some(koreanLabel)).Status?
              && FormatInvoiceStatus(NotionParser.MapKoreanStatus(Wrappers.Some(koreanLabel)).status) == koreanLabel
  {
  }

  predicate IsStrippedChar(c: char) {
    c == '#' || c == '(' || c == ')'
  }

  /** `.replace(/[#()]/g, '')`. */
  function RemoveStripped(s: string): (r: string)
    ensures |r| <= |s|
    ensures forall i :: 0 <= i < |r| ==> !IsStrippedChar(r[i])
  {
    if s == [] then []
    else (if IsStrippedChar(s[0]) then [] else [s[0]]) + RemoveStripped(s[1..])
  }

  /** The leading whitespace run removed. */
  function DropWhitespace(s: string): (r: string)
    ensures |r| <= |s|
    ensures r == s[|s| - |r|..]
    ensures r != [] ==> !IsJsWhitespace(r[0])
    ensures forall i :: 0 <= i < |s| - |r| ==> IsJsWhitespace(s[i])
  {
    if s != [] && IsJsWhitespace(s[0]) then DropWhitespace(s[1..]) else s
  }

  /** `.replace(/\s+/g, '-')`: each maximal whitespace run becomes one '-'. */
  function CollapseWhitespace(s: string): string
    decreases |s|
  {
    if s == [] then []
    else if IsJsWhitespace(s[0]) then ['-'] + CollapseWhitespace(DropWhitespace(s))
    else [s[0]] + CollapseWhitespace(s[1..])
  }

  /** `.replace(/\./g, '-')`. */
  function DotsToDashes(s: string): (r: string)
    ensures |r| == |s|
    ensures forall i :: 0 <= i < |s| ==> r[i] == (if s[i] == '.' then '-' else s[i])
  {
    seq(|s|, i requires 0 <= i < |s| => if s[i] == '.' then '-' else s[i])
  }

  /** Collapsing leaves no whitespace and introduces no character but '-'. */
  lemma {:induction false} CollapseOutput(s: string)
    requires forall i :: 0 <= i < |s| ==> !IsStrippedChar(s[i])
    ensures forall i :: 0 <= i < |CollapseWhitespace(s)| ==>
              !IsJsWhitespace(CollapseWhitespace(s)[i]) && !IsStrippedChar(CollapseWhitespace(s)[i])
    decreases |s|
  {
    if s != [] {
      if IsJsWhitespace(s[0]) {
        CollapseOutput(DropWhitespace(s));
      } else {
        CollapseOutput(s[1..]);
      }
    }
  }

  /** A character that `sanitizeFilename` never outputs. */
  predicate IsUnsafeChar(c: char) {
    IsStrippedChar(c) || c == '.' || IsJsWhitespace(c) || IsUpperAscii(c)
  }

  /** `sanitizeFilename`. */
  function SanitizeFilename(text: string): (r: string)
    ensures forall i :: 0 <= i < |r| ==> !IsUnsafeChar(r[i])
  {
    var stripped := RemoveStripped(text);
    var dashed := CollapseWhitespace(stripped);
    CollapseOutput(stripped);
    ToLower(DotsToDashes(dashed))
  }

  lemma {:induction false} RemoveStrippedIdentity(s: string)
    requires forall i :: 0 <= i < |s| ==> !IsStrippedChar(s[i])
    ensures RemoveStripped(s) == s
    decreases |s|
  {
    if s != [] {
      RemoveStrippedIdentity(s[1..]);
    }
  }

  lemma {:induction false} CollapseIdentity(s: string)
    requires forall i :: 0 <= i < |s| ==> !IsJsWhitespace(s[i])
    ensures CollapseWhitespace(s) == s
    decreases |s|
  {
    if s != [] {
      CollapseIdentity(s[1..]);
    }
  }

  /** A character that is neither stripped nor whitespace survives stripping. */
  lemma {:induction false} RemoveStrippedKeeps(s: string, c: char)
    requires c in s && !IsStrippedChar(c)
    ensures c in RemoveStripped(s)
    decreases |s|
  {
    if s[0] != c {
      assert c in s[1..];
      RemoveStrippedKeeps(s[1..], c);
    }
  }

  /** A character that is not whitespace survives collapsing. */
  lemma {:induction false} CollapseKeeps(s: string, c: char)
    requires c in s && !IsJsWhitespace(c)
    ensures c in CollapseWhitespace(s)
    decreases |s|
  {
    if IsJsWhitespace(s[0]) {
      var d := DropWhitespace(s);
      var k :| 0 <= k < |s| && s[k] == c;
      assert k >= |s| - |d| && d[k - (|s| - |d|)] == c;
      CollapseKeeps(d, c);
    } else if s[0] != c {
      assert c in s[1..];
      CollapseKeeps(s[1..], c);
    }
  }

  /** A character of the text that is none of '#', '(', ')', '.', whitespace or an
      upper-case ASCII letter appears in the sanitised name unchanged. */
  lemma SanitizeKeepsChar(text: string, c: char)
    requires c in text && !IsUnsafeChar(c)
    ensures c in SanitizeFilename(text)
  {
    var stripped := RemoveStripped(text);
    RemoveStrippedKeeps(text, c);
    var dashed := CollapseWhitespace(stripped);
    CollapseKeeps(stripped, c);
    var k :| 0 <= k < |dashed| && dashed[k] == c;
    assert DotsToDashes(dashed)[k] == c;
    assert ToLower(DotsToDashes(dashed))[k] == c;
  }

  /** `sanitizeFilename` is idempotent. */
  lemma SanitizeIdempotent(text: string)
    ensures SanitizeFilename(SanitizeFilename(text)) == SanitizeFilename(text)
  {
    var once := SanitizeFilename(text);
    RemoveStrippedIdentity(once);
    CollapseIdentity(once);
    assert DotsToDashes(once) == once;
    assert ToLower(once) == once;
  }

  /** Dropping whitespace from the front of a concatenation stops inside a left part
      that ends in a non-whitespace character. */
  lemma {:induction false} DropWhitespaceAppend(a: string, rest: string)
    requires a != [] && !IsJsWhitespace(a[|a| - 1])
    ensures DropWhitespace(a + rest) == DropWhitespace(a) + rest
    decreases |a|
  {
    if IsJsWhitespace(a[0]) {
      assert (a + rest)[1..] == a[1..] + rest;
      DropWhitespaceAppend(a[1..], rest);
    }
  }

  lemma {:induction false} DropWhitespaceRun(w: string, b: string)
    requires forall i :: 0 <= i < |w| ==> IsJsWhitespace(w[i])
    requires b == [] || !IsJsWhitespace(b[0])
    ensures DropWhitespace(w + b) == b
    decreases |w|
  {
    if w == [] {
      assert w + b == b;
    } else {
      assert (w + b)[1..] == w[1..] + b;
      DropWhitespaceRun(w[1..], b);
    }
  }

  /** A maximal whitespace run between two parts becomes exactly one '-', and the parts
      are rewritten independently. */
  lemma {:induction false} CollapseMaximalRun(a: string, w: string, b: string)
    requires a == [] || !IsJsWhitespace(a[|a| - 1])
    requires w != [] && forall i :: 0 <= i < |w| ==> IsJsWhitespace(w[i])
    requires b == [] || !IsJsWhitespace(b[0])
    ensures CollapseWhitespace(a + w + b) == CollapseWhitespace(a) + ['-'] + CollapseWhitespace(b)
    decreases |a|, 1
  {
    if a == [] {
      CollapseMaximalRunFirst(a, w, b);
    } else if IsJsWhitespace(a[0]) {
      CollapseMaximalRunAfterRun(a, w, b);
    } else {
      CollapseMaximalRunAfterChar(a, w, b);
    }
  }

  /** `CollapseMaximalRun` for an empty left part. */
  lemma CollapseMaximalRunFirst(a: string, w: string, b: string)
    requires a == []
    requires w != [] && forall i :: 0 <= i < |w| ==> IsJsWhitespace(w[i])
    requires b == [] || !IsJsWhitespace(b[0])
    ensures CollapseWhitespace(a + w + b) == CollapseWhitespace(a) + ['-'] + CollapseWhitespace(b)
  {
    calc {
      CollapseWhitespace(a + w + b);
      { assert a + w + b == w + b; }
      CollapseWhitespace(w + b);
      { CollapseRunFirst(w, b); }
      ['-'] + CollapseWhitespace(b);
      { assert CollapseWhitespace(a) + ['-'] == ['-']; }
      CollapseWhitespace(a) + ['-'] + CollapseWhitespace(b);
    }
  }

  /** `CollapseMaximalRun` for a left part that starts with whitespace. */
  lemma {:induction false} CollapseMaximalRunAfterRun(a: string, w: string, b: string)
    requires a != [] && IsJsWhitespace(a[0]) && !IsJsWhitespace(a[|a| - 1])
    requires w != [] && forall i :: 0 <= i < |w| ==> IsJsWhitespace(w[i])
    requires b == [] || !IsJsWhitespace(b[0])
    ensures CollapseWhitespace(a + w + b) == CollapseWhitespace(a) + ['-'] + CollapseWhitespace(b)
    decreases |a|, 0
  {
    var d := DropWhitespace(a);
    CollapseLeadingRun(a, w + b);
    CollapseMaximalRun(d, w, b);
    CollapseLeadingStep(a, d, w, b);
  }

  /** `CollapseMaximalRun` for a left part that starts with a copied character. */
  lemma {:induction false} CollapseMaximalRunAfterChar(a: string, w: string, b: string)
    requires a != [] && !IsJsWhitespace(a[0]) && !IsJsWhitespace(a[|a| - 1])
    requires w != [] && forall i :: 0 <= i < |w| ==> IsJsWhitespace(w[i])
    requires b == [] || !IsJsWhitespace(b[0])
    ensures CollapseWhitespace(a + w + b) == CollapseWhitespace(a) + ['-'] + CollapseWhitespace(b)
    decreases |a|, 0
  {
    var t := a[1..];
    assert t == [] || t[|t| - 1] == a[|a| - 1];
    CollapseMaximalRun(t, w, b);
    ConcatAssoc(t, w, b);
    ConcatAssoc(a, w, b);
    CollapseCharStep(a, w + b, CollapseWhitespace(b));
  }

  /** The leading run of the left part becomes the first '-' in front of the rest. */
  lemma CollapseLeadingStep(a: string, d: string, w: string, b: string)
    requires CollapseWhitespace(a) == ['-'] + CollapseWhitespace(d)
    requires CollapseWhitespace(a + (w + b)) == ['-'] + CollapseWhitespace(d + (w + b))
    requires CollapseWhitespace(d + w + b) == CollapseWhitespace(d) + ['-'] + CollapseWhitespace(b)
    ensures CollapseWhitespace(a + w + b) == CollapseWhitespace(a) + ['-'] + CollapseWhitespace(b)
  {
    ConcatAssoc(d, w, b);
    ConcatAssoc(a, w, b);
    var cd, cb := CollapseWhitespace(d), CollapseWhitespace(b);
    calc {
      CollapseWhitespace(a + w + b);
      ['-'] + CollapseWhitespace(d + w + b);
      ['-'] + (cd + ['-'] + cb);
      { ConcatAssoc4(['-'], cd, ['-'], cb); }
      ['-'] + cd + ['-'] + cb;
    }
  }

  lemma ConcatAssoc(x: string, y: string, z: string)
    ensures x + (y + z) == x + y + z
  {
  }

  lemma ConcatAssoc4(x: string, y: string, z: string, u: string)
    ensures x + (y + z + u) == x + y + z + u
  {
  }

  /** One copied character in front of a part whose rewrite ends in '-' and `tail`. */
  lemma CollapseCharStep(a: string, rest: string, tail: string)
    requires a != [] && !IsJsWhitespace(a[0])
    requires CollapseWhitespace(a[1..] + rest) == CollapseWhitespace(a[1..]) + ['-'] + tail
    ensures CollapseWhitespace(a + rest) == CollapseWhitespace(a) + ['-'] + tail
  {
    CollapseKeepsChar(a, rest);
  }

  lemma CollapseRunFirst(w: string, b: string)
    requires w != [] && forall i :: 0 <= i < |w| ==> IsJsWhitespace(w[i])
    requires b == [] || !IsJsWhitespace(b[0])
    ensures CollapseWhitespace(w + b) == ['-'] + CollapseWhitespace(b)
  {
    var s := w + b;
    assert s[0] == w[0];
    assert s != [] && IsJsWhitespace(s[0]);
    DropWhitespaceRun(w, b);
  }

  /** A leading whitespace run of a left part that ends in non-whitespace. */
  lemma CollapseLeadingRun(a: string, rest: string)
    requires a != [] && IsJsWhitespace(a[0]) && !IsJsWhitespace(a[|a| - 1])
    ensures DropWhitespace(a) != [] && !IsJsWhitespace(DropWhitespace(a)[|DropWhitespace(a)| - 1])
    ensures |DropWhitespace(a)| < |a|
    ensures CollapseWhitespace(a) == ['-'] + CollapseWhitespace(DropWhitespace(a))
    ensures CollapseWhitespace(a + rest) == ['-'] + CollapseWhitespace(DropWhitespace(a) + rest)
  {
    var d := DropWhitespace(a);
    assert d[|d| - 1] == a[|a| - 1];
    assert (a + rest)[0] == a[0];
    DropWhitespaceAppend(a, rest);
  }

  /** A leading non-whitespace character is copied. */
  lemma CollapseKeepsChar(a: string, rest: string)
    requires a != [] && !IsJsWhitespace(a[0])
    ensures CollapseWhitespace(a) == [a[0]] + CollapseWhitespace(a[1..])
    ensures CollapseWhitespace(a + rest) == [a[0]] + CollapseWhitespace(a[1..] + rest)
  {
    assert (a + rest)[0] == a[0];
    assert (a + rest)[1..] == a[1..] + rest;
  }

  /** Stripping distributes over concatenation. */
  lemma {:induction false} RemoveStrippedAppend(x: string, y: string)
    ensures RemoveStripped(x + y) == RemoveStripped(x) + RemoveStripped(y)
    decreases |x|
  {
    if x == [] {
      assert x + y == y;
    } else {
      assert (x + y)[1..] == x[1..] + y;
      RemoveStrippedAppend(x[1..], y);
    }
  }

  /** A word with neither whitespace nor a stripped character. */
  predicate IsPlainWord(s: string) {
    forall i :: 0 <= i < |s| ==> !IsJsWhitespace(s[i]) && !IsStrippedChar(s[i])
  }

  lemma StripKeepsTail(x: string, y: string)
    requires forall i :: 0 <= i < |y| ==> !IsStrippedChar(y[i])
    ensures RemoveStripped(x + y) == RemoveStripped(x) + y
  {
    RemoveStrippedAppend(x, y);
    RemoveStrippedIdentity(y);
  }

  lemma StripDropsChar(x: string, c: char)
    requires IsStrippedChar(c)
    ensures RemoveStripped(x + [c]) == RemoveStripped(x)
  {
    RemoveStrippedAppend(x, [c]);
    assert RemoveStripped([c]) == [];
  }

  /** A title of the form `<title> #<number> (<date>)` loses its '#', '(' and ')'. */
  lemma StripTitleShape(title: string, number: string, date: string)
    requires IsPlainWord(title) && IsPlainWord(number) && IsPlainWord(date)
    ensures RemoveStripped(title + " #" + number + " (" + date + ")") == title + " " + number + " " + date
  {
    var head := title + " #" + number + " (";
    StripTitleHead(title, number);
    StripKeepsTail(head, date);
    StripDropsChar(head + date, ')');
  }

  /** The part before the date: `<title> #<number> (` loses its '#' and '('. */
  lemma StripTitleHead(title: string, number: string)
    requires IsPlainWord(title) && IsPlainWord(number)
    ensures RemoveStripped(title + " #" + number + " (") == title + " " + number + " "
  {
    StripSpaceThen(title, '#');
    StripWordThen(title + " #", number, '(');
  }

  /** `<word> <c>` for a stripped `c` keeps the word and the space. */
  lemma StripSpaceThen(word: string, c: char)
    requires IsPlainWord(word) && IsStrippedChar(c)
    ensures RemoveStripped(word + [' ', c]) == word + " "
  {
    var p := word + " ";
    StripKeepsTail([], p);
    assert [] + p == p;
    StripDropsChar(p, c);
    assert p + [c] == word + [' ', c];
  }

  /** A plain word, a space and a stripped `c` after `x`: the word and the space are kept. */
  lemma StripWordThen(x: string, word: string, c: char)
    requires IsPlainWord(word) && IsStrippedChar(c)
    ensures RemoveStripped(x + word + [' ', c]) == RemoveStripped(x) + word + " "
  {
    var p := x + (word + " ");
    StripKeepsTail(x, word + " ");
    StripDropsChar(p, c);
    assert p + [c] == x + word + [' ', c];
    ConcatAssoc(RemoveStripped(x), word, " ");
  }

  /** A plain word followed by one space. */
  lemma CollapsePlainRun(a: string, b: string)
    requires IsPlainWord(a)
    requires b == [] || !IsJsWhitespace(b[0])
    ensures CollapseWhitespace(a + " " + b) == a + "-" + CollapseWhitespace(b)
  {
    CollapseIdentity(a);
    CollapseMaximalRun(a, " ", b);
  }

  lemma CollapseTitleShape(title: string, number: string, date: string)
    requires IsPlainWord(title) && IsPlainWord(number) && IsPlainWord(date) && number != []
    ensures CollapseWhitespace(title + " " + number + " " + date) == title + "-" + number + "-" + date
  {
    var rest := number + " " + date;
    CollapseWordPair(number, date);
    assert rest[0] == number[0];
    CollapsePlainRun(title, rest);
    ConcatAssoc(title + " ", number + " ", date);
    ConcatAssoc(title + " ", number, " ");
    ConcatAssoc(title + "-", number + "-", date);
    ConcatAssoc(title + "-", number, "-");
  }

  /** Two plain words separated by one space. */
  lemma CollapseWordPair(number: string, date: string)
    requires IsPlainWord(number) && IsPlainWord(date)
    ensures CollapseWhitespace(number + " " + date) == number + "-" + date
  {
    CollapseIdentity(date);
    CollapsePlainRun(number, date);
  }

  lemma LowerDashesDistributes(x: string, y: string, z: string)
    ensures ToLower(DotsToDashes(x + "-" + y + "-" + z))
         == ToLower(DotsToDashes(x)) + "-" + ToLower(DotsToDashes(y)) + "-" + ToLower(DotsToDashes(z))
  {
  }

  /** A document title `<title> #<number> (<date>)` becomes `<title>-<number>-<date>`, with
      dots turned into dashes and ASCII capitals lowered in each part. */
  lemma SanitizeTitleShape(title: string, number: string, date: string)
    requires IsPlainWord(title) && IsPlainWord(number) && IsPlainWord(date) && number != []
    ensures SanitizeFilename(title + " #" + number + " (" + date + ")")
         == ToLower(DotsToDashes(title)) + "-" + ToLower(DotsToDashes(number)) + "-" + ToLower(DotsToDashes(date))
  {
    StripTitleShape(title, number, date);
    CollapseTitleShape(title, number, date);
    LowerDashesDistributes(title, number, date);
  }

  lemma ExampleWords()
    ensures IsPlainWord("견적서") && IsPlainWord("001") && IsPlainWord("2025.10.07")
  {
  }

  lemma ExampleJoins()
    ensures "견적서" + " #" + "001" + " (" + "2025.10.07" + ")" == "견적서 #001 (2025.10.07)"
    ensures "견적서" + "-" + "001" + "-" + "2025-10-07" == "견적서-001-2025-10-07"
  {
  }

  lemma ExampleLowered()
    ensures ToLower(DotsToDashes("견적서")) == "견적서"
    ensures ToLower(DotsToDashes("001")) == "001"
    ensures ToLower(DotsToDashes("2025.10.07")) == "2025-10-07"
  {
  }

  /** The documented example: "견적서 #001 (2025.10.07)" becomes "견적서-001-2025-10-07". */
  lemma SanitizeExample(title: string)
    requires title == "견적서 #001 (2025.10.07)"
    ensures SanitizeFilename(title) == "견적서-001-2025-10-07"
  {
    ExampleWords();
    ExampleJoins();
    ExampleLowered();
    SanitizeTitleShape("견적서", "001", "2025.10.07");
  }
}

=== FILE: invoice_service.dfy ===
/** The decision logic of the invoice service (src/lib/services/invoice.service.ts):
    error classification, the settle-and-filter join of item pages, single-invoice
    retrieval under retry, and the list and search queries. The store is an oracle. */
module InvoiceService {
  import opened Wrappers
  import opened Domain
  import opened Constants
  import opened NotionTypes
  import opened NotionParser
  import opened Retry

  /** A settled provider promise: fulfilled with a value, or rejected with an error. */
  datatype Settled<T> = Fulfilled(value: T) | Thrown(reason: Error)

  /** The store's page retrieval, as seen during one attempt. */
  type Retrieve = string -> Settled<PageResponse>

  const ObjectNotFoundCode: string := "object_not_found"

  /** The `catch` of `fetchInvoicePage`: not-found code first, then known messages pass
      through unchanged, anything else becomes the generic provider error. */
  function ClassifyFetchError(e: Error): (r: Error)
    ensures e.code == Some(ObjectNotFoundCode) ==> r == Raise(InvoiceNotFound)
    ensures e.code != Some(ObjectNotFoundCode) && IsErrorMessage(e.message) ==> r == e
    ensures e.code != Some(ObjectNotFoundCode) && !IsErrorMessage(e.message) ==> r == Raise(NotionApiError)
    ensures IsErrorMessage(r.message)
  {
    if e.code == Some(ObjectNotFoundCode) then Raise(InvoiceNotFound)
    else if e.message != "" && IsErrorMessage(e.message) then e
    else Raise(NotionApiError)
  }

  /** Classifying an already classified error changes nothing. */
  lemma ClassifyIdempotent(e: Error)
    ensures ClassifyFetchError(ClassifyFetchError(e)) == ClassifyFetchError(e)
  {
  }

  /** `fetchInvoicePage`: a full page that passes `isInvoicePage` is returned; a partial
      page or one without the invoice-number key is invalid data; a rejected call is classified. */
  function FetchInvoicePage(outcome: Settled<PageResponse>): (r: Result<RawPage, Error>)
    ensures r.Success? <==> outcome.Fulfilled? && outcome.value.Full? && IsInvoicePage(outcome.value.page)
    ensures r.Success? ==> r.value == outcome.value.page
    ensures outcome.Fulfilled? && r.Failure? ==> r.error == Raise(InvalidInvoiceData)
    ensures outcome.Thrown? ==> r == Failure(ClassifyFetchError(outcome.reason))
    ensures r.Failure? ==> IsErrorMessage(r.error.message)
  {
    match outcome
    case Thrown(e) => Failure(ClassifyFetchError(e))
    case Fulfilled(response) =>
      if response.Full? && IsInvoicePage(response.page) then Success(response.page)
      else Failure(ClassifyFetchError(Raise(InvalidInvoiceData)))
  }

  /** The fulfilled, full item pages among settled retrievals, in order. */
  function KeepItemPages(results: seq<Settled<PageResponse>>): (r: seq<RawPage>)
    ensures |r| <= |results|
    ensures forall p :: p in r ==> IsItemPage(p)
  {
    if results == [] then []
    else
      var last := results[|results| - 1];
      KeepItemPages(results[..|results| - 1])
      + (if last.Fulfilled? && last.value.Full? && IsItemPage(last.value.page) then [last.value.page] else [])
  }

  /** How many retrievals were rejected. */
  function CountRejected(results: seq<Settled<PageResponse>>): (n: nat)
    ensures n <= |results|
  {
    if results == [] then 0
    else CountRejected(results[..|results| - 1]) + (if results[|results| - 1].Thrown? then 1 else 0)
  }

  /** How many retrievals succeeded but were dropped by a guard. */
  function CountDropped(results: seq<Settled<PageResponse>>): nat
  {
    if results == [] then 0
    else
      var last := results[|results| - 1];
      CountDropped(results[..|results| - 1])
      + (if last.Fulfilled? && !(last.value.Full? && IsItemPage(last.value.page)) then 1 else 0)
  }

  /** What `fetchInvoiceItems` produced: the kept pages, the failure count it logs,
      and the ids it asked the store for. */
  datatype ItemsFetch = ItemsFetch(items: seq<RawPage>, failedCount: nat, requested: seq<string>)

  /** The settled retrievals of `ids`, one per id, in id order (`Promise.allSettled`). */
  function Retrievals(ids: seq<string>, retrieve: Retrieve): (r: seq<Settled<PageResponse>>)
    ensures |r| == |ids|
    ensures forall i :: 0 <= i < |ids| ==> r[i] == retrieve(ids[i])
  {
    seq(|ids|, i requires 0 <= i < |ids| => retrieve(ids[i]))
  }

  /** `fetchInvoiceItems`: settle every retrieval, keep fulfilled full item pages in id order,
      count the rejections. */
  function FetchInvoiceItems(ids: seq<string>, retrieve: Retrieve): (r: ItemsFetch)
    ensures ids == [] ==> r == ItemsFetch([], 0, [])
    ensures ids != [] ==> r.requested == ids
    ensures |r.items| + r.failedCount <= |ids|
    ensures ids != [] ==>
              r.items == KeepItemPages(Retrievals(ids, retrieve)) && r.failedCount == CountRejected(Retrievals(ids, retrieve))
    ensures |r.items| + r.failedCount + CountDropped(Retrievals(ids, retrieve)) == |ids|
    ensures forall p :: p in r.items <==>
              IsItemPage(p) && exists i :: 0 <= i < |ids| && Retrievals(ids, retrieve)[i] == Fulfilled(Full(p))
    ensures r.failedCount == 0 <==> forall i :: 0 <= i < |ids| ==> Retrievals(ids, retrieve)[i].Fulfilled?
    ensures AllItemPages(Retrievals(ids, retrieve)) ==>
              |r.items| == |ids| && forall i :: 0 <= i < |ids| ==> r.items[i] == retrieve(ids[i]).value.page
  {
    if |ids| == 0 then ItemsFetch([], 0, [])
    else
      var results := Retrievals(ids, retrieve);
      SettleAccounting(results);
      CountRejectedZero(results);
      SettleFacts(results);
      ItemsFetch(KeepItemPages(results), CountRejected(results), ids)
  }

  /** Fetching the items of `a + b` keeps the pages of `a`'s retrievals, then those of
      `b`'s, duplicates included, and counts the failures of both: the surviving lines
      keep id order whatever fails. */
  lemma FetchInvoiceItemsAppend(a: seq<string>, b: seq<string>, retrieve: Retrieve)
    ensures FetchInvoiceItems(a + b, retrieve).items == FetchInvoiceItems(a, retrieve).items + FetchInvoiceItems(b, retrieve).items
    ensures FetchInvoiceItems(a + b, retrieve).failedCount
         == FetchInvoiceItems(a, retrieve).failedCount + FetchInvoiceItems(b, retrieve).failedCount
  {
    if a == [] {
      assert a + b == b;
    } else if b == [] {
      assert a + b == a;
    } else {
      FetchInvoiceItemsAppendBoth(a, b, retrieve);
    }
  }

  lemma FetchInvoiceItemsAppendBoth(a: seq<string>, b: seq<string>, retrieve: Retrieve)
    requires a != [] && b != []
    ensures FetchInvoiceItems(a + b, retrieve).items == FetchInvoiceItems(a, retrieve).items + FetchInvoiceItems(b, retrieve).items
    ensures FetchInvoiceItems(a + b, retrieve).failedCount
         == FetchInvoiceItems(a, retrieve).failedCount + FetchInvoiceItems(b, retrieve).failedCount
  {
    RetrievalsAppend(a, b, retrieve);
    KeepItemPagesAppend(Retrievals(a, retrieve), Retrievals(b, retrieve));
  }

  lemma RetrievalsAppend(a: seq<string>, b: seq<string>, retrieve: Retrieve)
    ensures Retrievals(a + b, retrieve) == Retrievals(a, retrieve) + Retrievals(b, retrieve)
  {
    var ra, rb := Retrievals(a, retrieve), Retrievals(b, retrieve);
    forall i | 0 <= i < |a + b|
      ensures Retrievals(a + b, retrieve)[i] == (ra + rb)[i]
    {
      if i < |a| {
        assert (a + b)[i] == a[i];
      } else {
        assert (a + b)[i] == b[i - |a|];
      }
    }
  }

  /** Every retrieval fulfilled with a full item page. */
  predicate AllItemPages(results: seq<Settled<PageResponse>>) {
    forall i :: 0 <= i < |results| ==>
      results[i].Fulfilled? && results[i].value.Full? && IsItemPage(results[i].value.page)
  }

  /** Membership and the all-fulfilled case of the settle-and-filter rule, for every page. */
  lemma SettleFacts(results: seq<Settled<PageResponse>>)
    ensures forall p :: p in KeepItemPages(results) <==>
              IsItemPage(p) && exists i :: 0 <= i < |results| && results[i] == Fulfilled(Full(p))
    ensures AllItemPages(results) ==>
            |KeepItemPages(results)| == |results|
            && forall i :: 0 <= i < |results| ==> KeepItemPages(results)[i] == results[i].value.page
  {
    forall p
      ensures p in KeepItemPages(results) <==>
              IsItemPage(p) && exists i :: 0 <= i < |results| && results[i] == Fulfilled(Full(p))
    {
      KeepItemPagesMembership(results, p);
    }
    if AllItemPages(results) {
      AllFulfilledKeepsAll(results);
    }
  }

  /** No failure is counted exactly when every retrieval fulfilled. */
  lemma {:induction false} CountRejectedZero(results: seq<Settled<PageResponse>>)
    ensures CountRejected(results) == 0 <==> forall i :: 0 <= i < |results| ==> results[i].Fulfilled?
    decreases |results|
  {
    if results != [] {
      CountRejectedZero(results[..|results| - 1]);
    }
  }

  /** Every settled retrieval is kept, rejected, or dropped by a guard: exactly one of the three. */
  lemma {:induction false} SettleAccounting(results: seq<Settled<PageResponse>>)
    ensures |KeepItemPages(results)| + CountRejected(results) + CountDropped(results) == |results|
    decreases |results|
  {
    if results != [] {
      SettleAccounting(results[..|results| - 1]);
    }
  }

  /** Filtering commutes with splitting the batch, so kept pages stay in id order. */
  lemma {:induction false} KeepItemPagesAppend(a: seq<Settled<PageResponse>>, b: seq<Settled<PageResponse>>)
    ensures KeepItemPages(a + b) == KeepItemPages(a) + KeepItemPages(b)
    ensures CountRejected(a + b) == CountRejected(a) + CountRejected(b)
    decreases |b|
  {
    if b == [] {
      assert a + b == a;
    } else {
      var b' := b[..|b| - 1];
      assert (a + b)[..|a + b| - 1] == a + b';
      assert (a + b)[|a + b| - 1] == b[|b| - 1];
      KeepItemPagesAppend(a, b');
    }
  }

  /** A page is kept exactly when some retrieval fulfilled with it and it is an item page. */
  lemma {:induction false} KeepItemPagesMembership(results: seq<Settled<PageResponse>>, p: RawPage)
    ensures p in KeepItemPages(results) <==>
            IsItemPage(p) && exists i :: 0 <= i < |results| && results[i] == Fulfilled(Full(p))
    decreases |results|
  {
    if results != [] {
      var front, last := results[..|results| - 1], results[|results| - 1];
      KeepItemPagesMembership(front, p);
      FulfilledWithSnoc(results, front, p);
      var kept := if last.Fulfilled? && last.value.Full? && IsItemPage(last.value.page) then [last.value.page] else [];
      assert KeepItemPages(results) == KeepItemPages(front) + kept;
      assert p in KeepItemPages(results) <==> p in KeepItemPages(front) || p in kept;
    }
  }

  /** Some retrieval of a non-empty batch fulfilled with `p` exactly when one before the
      last did or the last did. */
  lemma FulfilledWithSnoc(results: seq<Settled<PageResponse>>, front: seq<Settled<PageResponse>>, p: RawPage)
    requires results != [] && front == results[..|results| - 1]
    ensures (exists i :: 0 <= i < |results| && results[i] == Fulfilled(Full(p))) <==>
            (exists i :: 0 <= i < |front| && front[i] == Fulfilled(Full(p)))
            || results[|results| - 1] == Fulfilled(Full(p))
  {
    if exists i :: 0 <= i < |front| && front[i] == Fulfilled(Full(p)) {
      var i :| 0 <= i < |front| && front[i] == Fulfilled(Full(p));
      assert results[i] == Fulfilled(Full(p));
    }
    if exists i :: 0 <= i < |results| && results[i] == Fulfilled(Full(p)) {
      var i :| 0 <= i < |results| && results[i] == Fulfilled(Full(p));
      if i < |front| {
        assert front[i] == Fulfilled(Full(p));
      }
    }
  }

  /** When every retrieval fulfils with a full item page, nothing is lost and the
      pages come back in id order. */
  lemma {:induction false} AllFulfilledKeepsAll(results: seq<Settled<PageResponse>>)
    requires AllItemPages(results)
    ensures |KeepItemPages(results)| == |results|
    ensures forall i :: 0 <= i < |results| ==> KeepItemPages(results)[i] == results[i].value.page
    ensures CountRejected(results) == 0
    decreases |results|
  {
    if results != [] {
      AllFulfilledKeepsAll(results[..|results| - 1]);
    }
  }

  /** One attempt of `getInvoiceFromNotion`: the invoice page, then its items, then the transform. */
  function AttemptInvoice(pageId: string, retrieve: Retrieve, cal: Calendar): (r: Result<Invoice, Error>)
    ensures r.Success? <==> FetchInvoicePage(retrieve(pageId)).Success?
    ensures r.Failure? ==> r.error == FetchInvoicePage(retrieve(pageId)).error
    ensures r.Success? ==> r.value.id == FetchInvoicePage(retrieve(pageId)).value.id
    ensures r.Success? ==>
              var page := FetchInvoicePage(retrieve(pageId)).value;
              r.value == TransformInvoice(page, FetchInvoiceItems(RelationIdsOf(page.properties, ItemsKey), retrieve).items, cal)
  {
    var page :- FetchInvoicePage(retrieve(pageId));
    var items := FetchInvoiceItems(RelationIdsOf(page.properties, ItemsKey), retrieve).items;
    Success(TransformInvoice(page, items, cal))
  }

  /** The operation `getInvoiceFromNotion` hands to the retry loop: attempt `i` sees the
      store as `world(i)`. */
  function AttemptOracle(pageId: string, world: nat -> Retrieve, cal: Calendar): nat -> Result<Invoice, Error>
  {
    (i: nat) => AttemptInvoice(pageId, world(i), cal)
  }

  /** `getInvoiceFromNotion`: the attempt sequence under the default three tries. */
  function GetInvoiceFromNotion(pageId: string, world: nat -> Retrieve, cal: Calendar): (r: RetryRun<Invoice>)
    ensures 1 <= r.calls <= 3 && |r.delays| == r.calls - 1
    ensures r.result == AttemptOracle(pageId, world, cal)(r.calls - 1)
    ensures forall j :: 0 <= j < r.calls - 1 ==>
              AttemptOracle(pageId, world, cal)(j).Failure? && !IsTerminal(AttemptOracle(pageId, world, cal)(j).error)
    ensures r.result.Failure? ==> IsTerminal(r.result.error) || r.calls == 3
    ensures forall j :: 0 <= j < |r.delays| ==> r.delays[j] == BackoffDelay(j)
  {
    WithRetry(AttemptOracle(pageId, world, cal), 3)
  }

  /** When the first retrieval yields a full invoice page, one call suffices and the
      answer is that page transformed with the item pages its relation retrieved, however
      many item retrievals failed. */
  lemma FirstAttemptServes(pageId: string, world: nat -> Retrieve, cal: Calendar)
    requires FetchInvoicePage(world(0)(pageId)).Success?
    ensures var page := FetchInvoicePage(world(0)(pageId)).value;
            var items := FetchInvoiceItems(RelationIdsOf(page.properties, ItemsKey), world(0)).items;
            GetInvoiceFromNotion(pageId, world, cal) == RetryRun(Success(TransformInvoice(page, items, cal)), 1, [])
  {
    var fn := AttemptOracle(pageId, world, cal);
    assert fn(0).Success?;
  }

  /** A page the store reports as missing is asked for once and reported as not found. */
  lemma MissingPageFetchedOnce(pageId: string, world: nat -> Retrieve, cal: Calendar, message: string)
    requires world(0)(pageId) == Thrown(Error(Some(ObjectNotFoundCode), message))
    ensures GetInvoiceFromNotion(pageId, world, cal) == RetryRun(Failure(Raise(InvoiceNotFound)), 1, [])
  {
    var fn := AttemptOracle(pageId, world, cal);
    assert fn(0) == Failure(Raise(InvoiceNotFound));
    TerminalIsNotRetried(fn, 3);
  }

  // ---------------------------------------------------------------- list and search

  /** The store's query language, as far as the service uses it. */
  datatype Filter =
    | And(clauses: seq<Filter>)
    | Or(alternatives: seq<Filter>)
    | RichTextContains(property: string, text: string)
    | TitleContains(property: string, text: string)
    | SelectEquals(property: string, equals: SelectOperand)
    | DateRange(property: string, onOrAfter: Option<string>, onOrBefore: Option<string>)

  /** The operand of a select clause as the service builds it: a label, a member that
      `statusMap` inherits from `Object.prototype`, or `undefined`. */
  datatype SelectOperand = Label(option: string) | PrototypeMember(name: string) | Undefined

  datatype Sort = Descending(property: string)

  /** The arguments of one data-source query. */
  datatype QueryRequest = QueryRequest(pageSize: int, startCursor: Option<string>, filter: Option<Filter>, sorts: seq<Sort>)

  /** One page of query results. */
  datatype QueryResponse = QueryResponse(results: seq<PageResponse>, nextCursor: Option<string>, hasMore: bool)

  /** The data source, queried once per list or search call. */
  type DataSource = QueryRequest -> Settled<QueryResponse>

  /** `InvoiceFilters`: every field optional. The status is the page's URL parameter as
      given; nothing checks that it names a status. */
  datatype InvoiceFilters = InvoiceFilters(query: Option<string>, status: Option<string>, dateFrom: Option<string>, dateTo: Option<string>)

  /** What list and search return. */
  datatype InvoiceListResult = InvoiceListResult(invoices: seq<Invoice>, nextCursor: Option<string>, hasMore: bool)

  const MaxPageSize: int := 100
  const ListFailedMessage: string := "견적서 목록을 불러올 수 없습니다"
  const SearchFailedMessage: string := "견적서 검색에 실패했습니다"

  /** A JavaScript-truthy optional string: present and non-empty. */
  predicate Truthy(s: Option<string>) {
    s.Some? && s.value != ""
  }

  /** `Math.min(pageSize, 100)`: capped above, not below. */
  function ClampPageSize(pageSize: int): (r: int)
    ensures r <= MaxPageSize
    ensures pageSize <= MaxPageSize ==> r == pageSize
    ensures pageSize > MaxPageSize ==> r == MaxPageSize
  {
    if pageSize < MaxPageSize then pageSize else MaxPageSize
  }

  /** `startCursor || undefined`: an empty cursor is dropped. */
  function CursorArgument(startCursor: Option<string>): (r: Option<string>)
    ensures Truthy(startCursor) ==> r == startCursor
    ensures !Truthy(startCursor) ==> r.None?
  {
    if Truthy(startCursor) then startCursor else None
  }

  /** The sort property of the list query: issue date only for exactly 'issue_date'. */
  function ListSortProperty(sortBy: Option<string>): (r: string)
    ensures r == IssueDateKey <==> sortBy == Some("issue_date")
    ensures r != IssueDateKey ==> r == TotalAmountKey
  {
    if sortBy == Some("issue_date") then IssueDateKey else TotalAmountKey
  }

  /** The request `getInvoicesFromNotion` sends. */
  function ListRequest(pageSize: int, startCursor: Option<string>, sortBy: Option<string>): (q: QueryRequest)
    ensures q.pageSize == ClampPageSize(pageSize) && q.filter.None?
    ensures q.startCursor == CursorArgument(startCursor)
    ensures q.sorts == [Descending(ListSortProperty(sortBy))]
  {
    QueryRequest(ClampPageSize(pageSize), CursorArgument(startCursor), None, [Descending(ListSortProperty(sortBy))])
  }

  /** The `statusMap` literal inside `searchInvoices`. */
  function SearchStatusOption(s: InvoiceStatus): string {
    match s
    case Pending => "대기"
    case Approved => "승인"
    case Rejected => "거절"
  }

  /** `statusMap[filters.status]`: the literal is a plain object, so a status value gives
      its label, a name inherited from `Object.prototype` gives that member, and any other
      string gives `undefined`. */
  function StatusMapLookup(key: string): (r: SelectOperand)
    ensures forall s: InvoiceStatus :: key == StatusValue(s) ==> r == Label(StatusLabel(s))
    ensures r.Label? <==> key == "pending" || key == "approved" || key == "rejected"
    ensures r.Label? ==> KoreanToStatus(r.option).Own? && StatusValue(KoreanToStatus(r.option).status) == key
    ensures r.PrototypeMember? <==> IsObjectPrototypeMember(key)
    ensures r.PrototypeMember? ==> r.name == key
  {
    if key == "pending" then Label(SearchStatusOption(Pending))
    else if key == "approved" then Label(SearchStatusOption(Approved))
    else if key == "rejected" then Label(SearchStatusOption(Rejected))
    else if IsObjectPrototypeMember(key) then PrototypeMember(key)
    else Undefined
  }

  /** The search status map agrees with the label table, and the parser maps it back. */
  lemma SearchStatusMapAgrees(s: InvoiceStatus)
    ensures SearchStatusOption(s) == StatusLabel(s)
    ensures StatusMapLookup(StatusValue(s)) == Label(StatusLabel(s))
    ensures KoreanToStatus(SearchStatusOption(s)) == Own(s)
    ensures MapKoreanStatus(Some(SearchStatusOption(s))) == Status(s)
  {
  }

  function QueryClause(q: string): Filter {
    Or([RichTextContains(ClientNameKey, q), TitleContains(InvoiceNumberKey, q)])
  }

  function DateClause(dateFrom: Option<string>, dateTo: Option<string>): Filter {
    DateRange(IssueDateKey,
              if Truthy(dateFrom) then dateFrom else None,
              if Truthy(dateTo) then dateTo else None)
  }

  function ClauseCount(f: InvoiceFilters): nat {
    (if Truthy(f.query) then 1 else 0) + (if Truthy(f.status) then 1 else 0)
    + (if Truthy(f.dateFrom) || Truthy(f.dateTo) then 1 else 0)
  }

  /** The clause list of `searchInvoices`: one per present filter, in the order query,
      status, date range. */
  function SearchClauses(f: InvoiceFilters): (r: seq<Filter>)
    ensures |r| == ClauseCount(f)
    ensures Truthy(f.query) ==> r[0] == QueryClause(f.query.value)
    ensures Truthy(f.status) ==>
              r[if Truthy(f.query) then 1 else 0] == SelectEquals(StatusKey, StatusMapLookup(f.status.value))
    ensures Truthy(f.dateFrom) || Truthy(f.dateTo) ==> r[|r| - 1] == DateClause(f.dateFrom, f.dateTo)
    ensures forall c :: c in r ==> c.DateRange? ==> (c.onOrAfter.Some? <==> Truthy(f.dateFrom)) && (c.onOrBefore.Some? <==> Truthy(f.dateTo))
  {
    (if Truthy(f.query) then [QueryClause(f.query.value)] else [])
    + (if Truthy(f.status) then [SelectEquals(StatusKey, StatusMapLookup(f.status.value))] else [])
    + (if Truthy(f.dateFrom) || Truthy(f.dateTo) then [DateClause(f.dateFrom, f.dateTo)] else [])
  }

  /** The request `searchInvoices` sends: no filter without clauses, otherwise their AND,
      always sorted by issue date descending. */
  function SearchRequest(f: InvoiceFilters, pageSize: int, startCursor: Option<string>): (q: QueryRequest)
    ensures q.pageSize == ClampPageSize(pageSize)
    ensures q.startCursor == CursorArgument(startCursor)
    ensures q.filter.None? <==> ClauseCount(f) == 0
    ensures q.filter.Some? ==> q.filter.value == And(SearchClauses(f))
    ensures q.sorts == [Descending(IssueDateKey)]
  {
    var clauses := SearchClauses(f);
    QueryRequest(ClampPageSize(pageSize), CursorArgument(startCursor),
                 if |clauses| > 0 then Some(And(clauses)) else None,
                 [Descending(IssueDateKey)])
  }

  /** The raw results that pass the `'properties' in page` and `isInvoicePage` filters. */
  function InvoicePages(results: seq<PageResponse>): (r: seq<RawPage>)
    ensures |r| <= |results|
    ensures forall p :: p in r ==> IsInvoicePage(p)
  {
    if results == [] then []
    else
      var last := results[|results| - 1];
      InvoicePages(results[..|results| - 1])
      + (if last.Full? && IsInvoicePage(last.page) then [last.page] else [])
  }

  /** Builds one invoice of a result page: its items are joined through the
      failure-tolerant item fetch. */
  function AssembleInvoice(page: RawPage, retrieve: Retrieve, cal: Calendar): (r: Invoice)
    ensures r.id == page.id
    ensures var ids := RelationIdsOf(page.properties, ItemsKey);
            && |r.items| <= |ids|
            && (ids == [] ==> r.items == [])
            && (ids != [] ==> r.items == TransformItems(KeepItemPages(Retrievals(ids, retrieve))))
  {
    TransformInvoice(page, FetchInvoiceItems(RelationIdsOf(page.properties, ItemsKey), retrieve).items, cal)
  }

  /** The shared tail of list and search: a failed query becomes one fixed-message error;
      otherwise one invoice per invoice page, in order, with the cursor passed through. */
  function AssemblePage(response: Settled<QueryResponse>, retrieve: Retrieve, cal: Calendar, failureMessage: string)
    : (r: Result<InvoiceListResult, Error>)
    ensures response.Thrown? ==> r == Failure(Error(None, failureMessage))
    ensures response.Fulfilled? ==> r.Success?
    ensures r.Success? ==>
              var pages := InvoicePages(response.value.results);
              && |r.value.invoices| == |pages|
              && (forall j :: 0 <= j < |pages| ==> r.value.invoices[j] == AssembleInvoice(pages[j], retrieve, cal))
              && (forall j :: 0 <= j < |pages| ==> r.value.invoices[j].id == pages[j].id)
              && r.value.nextCursor == response.value.nextCursor
              && r.value.hasMore == response.value.hasMore
  {
    match response
    case Thrown(_) => Failure(Error(None, failureMessage))
    case Fulfilled(res) =>
      var pages := InvoicePages(res.results);
      Success(InvoiceListResult(seq(|pages|, j requires 0 <= j < |pages| => AssembleInvoice(pages[j], retrieve, cal)),
                                res.nextCursor, res.hasMore))
  }

  /** `getInvoicesFromNotion`. */
  function GetInvoicesFromNotion(pageSize: int, startCursor: Option<string>, sortBy: Option<string>,
                                 source: DataSource, retrieve: Retrieve, cal: Calendar)
    : (r: Result<InvoiceListResult, Error>)
    ensures source(ListRequest(pageSize, startCursor, sortBy)).Thrown? ==> r == Failure(Error(None, ListFailedMessage))
    ensures source(ListRequest(pageSize, startCursor, sortBy)).Fulfilled? ==> r.Success?
    ensures r.Success? ==> r == AssemblePage(source(ListRequest(pageSize, startCursor, sortBy)), retrieve, cal, ListFailedMessage)
  {
    AssemblePage(source(ListRequest(pageSize, startCursor, sortBy)), retrieve, cal, ListFailedMessage)
  }

  /** `searchInvoices`. */
  function SearchInvoices(f: InvoiceFilters, pageSize: int, startCursor: Option<string>,
                          source: DataSource, retrieve: Retrieve, cal: Calendar)
    : (r: Result<InvoiceListResult, Error>)
    ensures source(SearchRequest(f, pageSize, startCursor)).Thrown? ==> r == Failure(Error(None, SearchFailedMessage))
    ensures source(SearchRequest(f, pageSize, startCursor)).Fulfilled? ==> r.Success?
    ensures r.Success? ==> r == AssemblePage(source(SearchRequest(f, pageSize, startCursor)), retrieve, cal, SearchFailedMessage)
  {
    AssemblePage(source(SearchRequest(f, pageSize, startCursor)), retrieve, cal, SearchFailedMessage)
  }

  /** Failed item joins never cost an invoice: a result page with `n` invoice pages
      yields `n` invoices whatever the item retrievals do. */
  lemma {:induction false} InvoicePagesAllKept(results: seq<PageResponse>)
    requires forall i :: 0 <= i < |results| ==> results[i].Full? && IsInvoicePage(results[i].page)
    ensures |InvoicePages(results)| == |results|
    ensures forall i :: 0 <= i < |results| ==> InvoicePages(results)[i] == results[i].page
    decreases |results|
  {
    if results != [] {
      InvoicePagesAllKept(results[..|results| - 1]);
    }
  }

  lemma PartialJoinFailureKeepsRecords(res: QueryResponse, retrieve: Retrieve, cal: Calendar, m: string)
    requires forall i :: 0 <= i < |res.results| ==> res.results[i].Full? && IsInvoicePage(res.results[i].page)
    ensures AssemblePage(Fulfilled(res), retrieve, cal, m).Success?
    ensures |AssemblePage(Fulfilled(res), retrieve, cal, m).value.invoices| == |res.results|
  {
    InvoicePagesAllKept(res.results);
  }
}

=== FILE: link_generator.dfy ===
/** Share-link builders (src/lib/utils/link-generator.ts). The base URL, read from the
    configuration in the source, is a parameter. */
module LinkGenerator {

  /** `generateInvoiceUrl`: the public page of one quotation. */
  function GenerateInvoiceUrl(baseUrl: string, invoiceId: string): (r: string)
    ensures |r| == |baseUrl| + 9 + |invoiceId|
    ensures r[..|baseUrl|] == baseUrl
    ensures r[|baseUrl|..|baseUrl| + 9] == "/invoice/"
    ensures r[|r| - |invoiceId|..] == invoiceId
  {
    baseUrl + "/invoice/" + invoiceId
  }

  /** The quotation id read back from a generated URL. */
  function InvoiceIdOf(baseUrl: string, url: string): string
    requires |url| >= |baseUrl| + 9
  {
    url[|baseUrl| + 9..]
  }

  /** `generateShortUrl`: "..." and at most the first eight characters of the id. */
  function GenerateShortUrl(invoiceId: string): (r: string)
    ensures |r| == 3 + (if |invoiceId| < 8 then |invoiceId| else 8)
    ensures r[..3] == "..."
    ensures r[3..] == invoiceId[..|r| - 3]
  {
    "..." + invoiceId[..if |invoiceId| < 8 then |invoiceId| else 8]
  }

  /** Reading the id back from a generated URL gives the id, and different ids give
      different URLs for the same base. */
  lemma InvoiceUrlRoundTrip(baseUrl: string, invoiceId: string, otherId: string)
    ensures InvoiceIdOf(baseUrl, GenerateInvoiceUrl(baseUrl, invoiceId)) == invoiceId
    ensures invoiceId != otherId ==> GenerateInvoiceUrl(baseUrl, invoiceId) != GenerateInvoiceUrl(baseUrl, otherId)
  {
    if invoiceId != otherId {
      assert InvoiceIdOf(baseUrl, GenerateInvoiceUrl(baseUrl, otherId)) == otherId;
    }
  }

  /** Ids of at most eight characters are shown whole; longer ids sharing their first
      eight characters share a short form. */
  lemma ShortUrlKeepsShortIds(a: string, b: string)
    ensures |a| <= 8 ==> GenerateShortUrl(a) == "..." + a
    ensures |a| >= 8 && |b| >= 8 && a[..8] == b[..8] ==> GenerateShortUrl(a) == GenerateShortUrl(b)
  {
  }
}

=== FILE: logger.dfy ===
/** Log-context redaction (src/lib/logger.ts, `sanitizeContext`). Writing the entry
    to the console is not modelled. */
module Logger {
  import opened Wrappers
  import opened Text

  /** A JSON-like context value. Objects nest; redaction looks only at the top level. */
  datatype LogValue = Str(text: string) | Num(n: int) | Bool(b: bool) | Null | Obj(fields: map<string, LogValue>)

  type Context = map<string, LogValue>

  const Redacted := Str("[REDACTED]")

  /** The eight keywords, already lower-case. */
  const SensitiveKeys: seq<string> :=
    ["apikey", "api_key", "password", "token", "secret", "auth", "credential", "private"]

  /** A key is sensitive when its lower-cased form contains one of the keywords. */
  predicate IsSensitiveKey(key: string) {
    exists j :: 0 <= j < |SensitiveKeys| && Contains(ToLower(key), SensitiveKeys[j])
  }

  /** `sanitizeContext`: an absent context stays absent; otherwise every key is kept and
      the value of each sensitive key is replaced by "[REDACTED]". */
  function SanitizeContext(context: Option<Context>): (r: Option<Context>)
    ensures r.None? <==> context.None?
    ensures r.Some? ==> r.value.Keys == context.value.Keys
    ensures r.Some? ==> forall k :: k in r.value && IsSensitiveKey(k) ==> r.value[k] == Redacted
    ensures r.Some? ==> forall k :: k in r.value && !IsSensitiveKey(k) ==> r.value[k] == context.value[k]
  {
    match context
    case None => None
    case Some(c) => Some(map k | k in c :: if IsSensitiveKey(k) then Redacted else c[k])
  }

  /** Lower-casing twice is lower-casing once. */
  lemma ToLowerIdempotent(s: string)
    ensures ToLower(ToLower(s)) == ToLower(s)
  {
  }

  /** Sensitivity ignores ASCII case. */
  lemma SensitivityIgnoresCase(key: string)
    ensures IsSensitiveKey(ToLower(key)) <==> IsSensitiveKey(key)
  {
    ToLowerIdempotent(key);
  }

  /** A key is sensitive exactly when some keyword occurs at some offset of its
      lower-cased form. */
  lemma SensitiveIffKeywordOccurs(key: string)
    ensures IsSensitiveKey(key) <==>
      exists j, o :: 0 <= j < |SensitiveKeys| && OccursAt(ToLower(key), SensitiveKeys[j], o)
  {
    forall j | 0 <= j < |SensitiveKeys| {
      ContainsIffOccurs(ToLower(key), SensitiveKeys[j]);
    }
  }

  /** Sanitising twice is sanitising once. */
  lemma SanitizeIdempotent(context: Option<Context>)
    ensures SanitizeContext(SanitizeContext(context)) == SanitizeContext(context)
  {
    if context.Some? {
      var once := SanitizeContext(context).value;
      var twice := SanitizeContext(Some(once)).value;
      assert forall k :: k in twice ==> twice[k] == once[k];
      assert twice == once;
    }
  }

  /** A string that lacks one character of `sub` does not contain `sub`. */
  lemma MissingCharRulesOut(s: string, sub: string, c: char)
    requires c in sub && c !in s
    ensures !Contains(s, sub)
  {
    ContainsIffOccurs(s, sub);
  }

  /** A key whose lower-cased form lacks, for every keyword, one of that keyword's
      characters is not sensitive. */
  lemma NotSensitiveByMissingChars(key: string, missing: string)
    requires |missing| == |SensitiveKeys|
    requires forall j :: 0 <= j < |SensitiveKeys| ==> missing[j] in SensitiveKeys[j] && missing[j] !in ToLower(key)
    ensures !IsSensitiveKey(key)
  {
    forall j | 0 <= j < |SensitiveKeys|
      ensures !Contains(ToLower(key), SensitiveKeys[j])
    {
      MissingCharRulesOut(ToLower(key), SensitiveKeys[j], missing[j]);
    }
  }

  /** Redaction is shallow: a sensitive key inside a nested object is left as it is. */
  lemma NestedKeysNotRedacted(context: Context, inner: Context)
    requires "request" in context && context["request"] == Obj(inner)
    ensures SanitizeContext(Some(context)).value["request"] == Obj(inner)
  {
    LowerOf("request");
    NotSensitiveByMissingChars("request", "yypkcacp");
  }

  /** The documented example: `{apiKey, name}` keeps `name` and redacts `apiKey`. */
  lemma SanitizeExample(context: Context)
    requires context == map["apiKey" := Str("12345"), "name" := Str("John")]
    ensures SanitizeContext(Some(context)) == Some(map["apiKey" := Redacted, "name" := Str("John")])
  {
    ExampleKeys();
    assert "apiKey" != "name" by { assert "apiKey"[0] != "name"[0]; }
    SanitizeTwoKeys(context, "apiKey", "name", Str("12345"), Str("John"));
  }

  /** A two-key context with one sensitive key: only that key's value is replaced. */
  lemma SanitizeTwoKeys(context: Context, s: string, n: string, sv: LogValue, nv: LogValue)
    requires s != n && IsSensitiveKey(s) && !IsSensitiveKey(n)
    requires context == map[s := sv, n := nv]
    ensures SanitizeContext(Some(context)) == Some(map[s := Redacted, n := nv])
  {
    var r := SanitizeContext(Some(context)).value;
    var expected := map[s := Redacted, n := nv];
    assert r.Keys == expected.Keys;
    assert r[s] == expected[s];
    assert r[n] == expected[n];
    assert r == expected;
  }

  lemma ExampleKeys()
    ensures IsSensitiveKey("apiKey") && !IsSensitiveKey("name")
  {
    LowerOf("name");
    NotSensitiveByMissingChars("name", "yypkcucp");
    assert ToLower("apiKey") == "apikey";
    assert StartsWith(ToLower("apiKey"), SensitiveKeys[0]);
  }

  lemma LowerOf(s: string)
    requires forall i :: 0 <= i < |s| ==> !IsUpperAscii(s[i])
    ensures ToLower(s) == s
  {
  }
}

=== FILE: middleware.dfy ===
/** The ingress decision (src/middleware.ts): admin paths go through the session check,
    API paths through the rate limiter, everything else passes untouched. Token
    verification is an oracle. */
module Middleware {
  import opened Wrappers
  import opened Text
  import opened RateLimit

  const MaxRequests: int := 10
  const WindowMs: int := 60000
  const LoginPath: string := "/admin-login"
  const UnknownClient: string := "unknown"

  /** The parts of a request the middleware reads. */
  datatype Request = Request(
    pathname: string,
    sessionCookie: Option<string>,
    forwardedFor: Option<string>,
    realIp: Option<string>)

  /** The JSON body of a 429: two fixed texts and the limiter's `retryAfter`, which
      `JSON.stringify` omits when it is undefined. */
  datatype LimitBody = LimitBody(error: string, message: string, retryAfter: Option<int>)

  const LimitExceededText: string := "요청 한도를 초과했습니다."

  /** The 429 body's `message`, built from the request limit. */
  function LimitMessage(): (m: string)
    ensures m == "분당 최대 10회 요청 가능합니다."
  {
    LimitHeaderValue();
    "분당 최대 " + IntToString(MaxRequests) + "회 요청 가능합니다."
  }

  /** The middleware's decision: a redirect, a pass-through with extra headers, or a 429. */
  datatype Response =
    | Redirect(location: string)
    | PassThrough(headers: map<string, string>)
    | TooManyRequests(headers: map<string, string>, body: LimitBody)

  datatype Outcome = Outcome(response: Response, table: RateTable)

  /** The paths the middleware is registered for (`config.matcher`). */
  predicate MatcherApplies(pathname: string) {
    pathname == "/api" || StartsWith(pathname, "/api/") || pathname == "/admin" || StartsWith(pathname, "/admin/")
  }

  /** The client identifier: the first trimmed entry of `x-forwarded-for` if non-empty,
      else a non-empty `x-real-ip`, else 'unknown'. */
  function ClientIdentifier(req: Request): (id: string)
    ensures id != ""
    ensures req.forwardedFor.Some? && Trim(BeforeComma(req.forwardedFor.value)) != "" ==>
              id == Trim(BeforeComma(req.forwardedFor.value))
    ensures (req.forwardedFor.None? || Trim(BeforeComma(req.forwardedFor.value)) == "") ==>
              id == (if req.realIp.Some? && req.realIp.value != "" then req.realIp.value else UnknownClient)
  {
    var forwarded := if req.forwardedFor.Some? then Trim(BeforeComma(req.forwardedFor.value)) else "";
    if forwarded != "" then forwarded
    else if req.realIp.Some? && req.realIp.value != "" then req.realIp.value
    else UnknownClient
  }

  /** An identifier taken from `x-forwarded-for` is one entry: it holds no comma and
      has no surrounding whitespace. */
  lemma ForwardedIdentifierIsOneEntry(req: Request)
    requires req.forwardedFor.Some? && Trim(BeforeComma(req.forwardedFor.value)) != ""
    ensures ',' !in ClientIdentifier(req)
    ensures !IsJsWhitespace(ClientIdentifier(req)[0])
  {
  }

  /** `String(retryAfter || 60)`. */
  function RetryAfterHeader(retryAfter: Option<int>): (h: string)
    ensures retryAfter.Some? && retryAfter.value != 0 ==> h == IntToString(retryAfter.value)
    ensures retryAfter.None? || retryAfter.value == 0 ==> h == "60"
  {
    assert NatToString(6) == "6";
    assert NatToString(60) == NatToString(6) + [DigitChar(0)];
    IntToString(if retryAfter.Some? && retryAfter.value != 0 then retryAfter.value else 60)
  }

  /** `String(MAX_REQUESTS)` is '10'. */
  lemma LimitHeaderValue()
    ensures IntToString(MaxRequests) == "10"
  {
    assert NatToString(1) == "1";
    assert NatToString(10) == NatToString(1) + [DigitChar(0)];
  }

  /** `middleware(request)` at time `now`. */
  function Middleware(req: Request, verifyToken: string -> bool, table: RateTable, now: int): (o: Outcome)
    ensures StartsWith(req.pathname, "/admin") ==> o.table == table
    ensures StartsWith(req.pathname, "/admin") ==>
              (o.response == PassThrough(map[]) <==>
                 req.sessionCookie.Some? && req.sessionCookie.value != "" && verifyToken(req.sessionCookie.value))
    ensures StartsWith(req.pathname, "/admin") && o.response != PassThrough(map[]) ==> o.response == Redirect(LoginPath)
    ensures !StartsWith(req.pathname, "/admin") && StartsWith(req.pathname, "/api/") ==>
              var c := CheckRateLimit(table, ClientIdentifier(req), MaxRequests, WindowMs, now);
              && o.table == c.table
              && (c.result.allowed ==> o.response == PassThrough(map[
                    "X-RateLimit-Limit" := "10",
                    "X-RateLimit-Remaining" := IntToString(c.result.remaining)]))
              && (!c.result.allowed ==> o.response == TooManyRequests(map[
                    "Content-Type" := "application/json",
                    "Retry-After" := RetryAfterHeader(c.result.retryAfter),
                    "X-RateLimit-Limit" := "10",
                    "X-RateLimit-Remaining" := "0"],
                    LimitBody(LimitExceededText, "분당 최대 10회 요청 가능합니다.", c.result.retryAfter)))
    ensures !StartsWith(req.pathname, "/admin") && !StartsWith(req.pathname, "/api/") ==>
              o == Outcome(PassThrough(map[]), table)
  {
    if StartsWith(req.pathname, "/admin") then
      var token := req.sessionCookie.GetOr("");
      if token == "" then Outcome(Redirect(LoginPath), table)
      else if verifyToken(token) then Outcome(PassThrough(map[]), table)
      else Outcome(Redirect(LoginPath), table)
    else if StartsWith(req.pathname, "/api/") then
      LimitHeaderValue();
      var c := CheckRateLimit(table, ClientIdentifier(req), MaxRequests, WindowMs, now);
      if !c.result.allowed then
        Outcome(TooManyRequests(map[
                  "Content-Type" := "application/json",
                  "Retry-After" := RetryAfterHeader(c.result.retryAfter),
                  "X-RateLimit-Limit" := IntToString(MaxRequests),
                  "X-RateLimit-Remaining" := "0"],
                  LimitBody(LimitExceededText, LimitMessage(), c.result.retryAfter)), c.table)
      else
        Outcome(PassThrough(map[
                  "X-RateLimit-Limit" := IntToString(MaxRequests),
                  "X-RateLimit-Remaining" := IntToString(c.result.remaining)]), c.table)
    else Outcome(PassThrough(map[]), table)
  }

  /** An admin request never touches any rate-limit record, whatever the headers say. */
  lemma AdminNeverRateLimited(req: Request, verifyToken: string -> bool, table: RateTable, now: int)
    requires StartsWith(req.pathname, "/admin")
    ensures Middleware(req, verifyToken, table, now).table == table
    ensures !Middleware(req, verifyToken, table, now).response.TooManyRequests?
  {
  }

  /** The login page starts with '/admin', so the middleware would redirect a visitor
      without a session to the page itself; it is safe only because the matcher does not
      route '/admin-login' to the middleware. */
  lemma LoginPageOutsideMatcher(verifyToken: string -> bool, table: RateTable, now: int)
    ensures !MatcherApplies(LoginPath)
    ensures Middleware(Request(LoginPath, None, None, None), verifyToken, table, now).response == Redirect(LoginPath)
  {
    assert LoginPath[..6] == "/admin";
    assert LoginPath[..5][2] != "/api/"[2];
    assert LoginPath[..7][6] != "/admin/"[6];
  }

  /** An allowed API request reports the remaining count; with the table valid for
      the middleware's limits that count lies in 0..9. */
  lemma AllowedRemainingInRange(req: Request, verifyToken: string -> bool, table: RateTable, now: int)
    requires !StartsWith(req.pathname, "/admin") && StartsWith(req.pathname, "/api/")
    requires Valid(table, MaxRequests, WindowMs, now)
    ensures var c := CheckRateLimit(table, ClientIdentifier(req), MaxRequests, WindowMs, now);
            c.result.allowed ==> 0 <= c.result.remaining <= MaxRequests - 1
  {
  }
}

=== FILE: mock_data.dfy ===
/** Sample quotations for development (src/lib/mock-data.ts). */
module MockData {
  import opened Domain
  import opened Text

  /** `generateMockItems`: five fixed lines with distinct ids, each priced consistently. */
  function MockItems(): (r: seq<InvoiceItem>)
    ensures |r| == 5
    ensures forall i, j :: 0 <= i < j < |r| ==> r[i].id != r[j].id
    ensures forall i :: 0 <= i < |r| ==> r[i].description != "" && r[i].quantity > 0 && r[i].unitPrice > 0
    ensures forall i :: 0 <= i < |r| ==> r[i].amount == r[i].quantity * r[i].unitPrice
  {
    [ InvoiceItem("item-1", "웹사이트 디자인", 1, 5000000, 5000000),
      InvoiceItem("item-2", "프론트엔드 개발", 1, 8000000, 8000000),
      InvoiceItem("item-3", "백엔드 API 개발", 1, 7000000, 7000000),
      InvoiceItem("item-4", "데이터베이스 설계", 1, 3000000, 3000000),
      InvoiceItem("item-5", "유지보수 (6개월)", 6, 500000, 3000000) ]
  }

  /** `generateMockInvoice`: the base sample, its total being the sum of the lines. */
  function MockInvoice(): (r: Invoice)
    ensures r.items == MockItems()
    ensures r.totalAmount == SumAmounts(r.items)
  {
    var items := MockItems();
    Invoice("mock-invoice-001", "INV-2025-001", "ABC 주식회사", "2025-10-07", "2025-10-21",
            items, SumAmounts(items), Status(Pending))
  }

  /** `String(n).padStart(3, '0')`. */
  function Pad3(n: nat): (r: string)
    ensures |r| == if |NatToString(n)| >= 3 then |NatToString(n)| else 3
    ensures n >= 100 ==> r == NatToString(n)
    ensures forall i :: 0 <= i < |r| ==> '0' <= r[i] <= '9'
    ensures DigitsValue(r) == n
  {
    Pad3Value(n);
    PadStart(NatToString(n), 3, '0')
  }

  /** The padded rendering is a digit string whose value is `n`. */
  lemma Pad3Value(n: nat)
    ensures forall i :: 0 <= i < |PadStart(NatToString(n), 3, '0')| ==> '0' <= PadStart(NatToString(n), 3, '0')[i] <= '9'
    ensures DigitsValue(PadStart(NatToString(n), 3, '0')) == n
  {
    var s := NatToString(n);
    NatToStringRoundTrip(n);
    if |s| < 3 {
      LeadingZerosValue(3 - |s|, s);
      assert PadStart(s, 3, '0') == Repeat('0', 3 - |s|) + s;
    }
  }

  /** Copy `index` (0-based) of the base sample. */
  function MockCopy(index: nat): Invoice {
    MockInvoice().(
      id := "mock-invoice-" + Pad3(index + 1),
      invoiceNumber := "INV-2025-" + Pad3(index + 1),
      clientName := "클라이언트 " + NatToString(index + 1))
  }

  /** `generateMockInvoices(count)`: `count` numbered copies of the base sample; a count
      of zero or less gives none. */
  function MockInvoices(count: int): (r: seq<Invoice>)
    ensures |r| == if count <= 0 then 0 else count
    ensures forall i :: 0 <= i < |r| ==>
      && r[i].id == "mock-invoice-" + Pad3(i + 1)
      && r[i].invoiceNumber == "INV-2025-" + Pad3(i + 1)
      && r[i].clientName == "클라이언트 " + NatToString(i + 1)
      && r[i].issueDate == MockInvoice().issueDate
      && r[i].validUntil == MockInvoice().validUntil
      && r[i].items == MockInvoice().items
      && r[i].totalAmount == MockInvoice().totalAmount
      && r[i].status == MockInvoice().status
  {
    if count <= 0 then [] else seq(count, (i: int) requires 0 <= i < count => MockCopy(i))
  }

  /** Every sample line's amount is its quantity times its unit price. */
  lemma MockItemAmountsAreProducts()
    ensures forall i :: 0 <= i < |MockItems()| ==>
              MockItems()[i].amount == MockItems()[i].quantity * MockItems()[i].unitPrice
  {
  }

  /** The sample total is 26,000,000 won. */
  lemma MockTotal()
    ensures MockInvoice().totalAmount == 26000000
  {
    var items := MockItems();
    assert items[..1][..0] == [];
    assert items[..2][..1] == items[..1];
    assert items[..3][..2] == items[..2];
    assert items[..4][..3] == items[..3];
    assert items[..4] == items[..|items| - 1];
    assert SumAmounts(items[..1]) == 5000000;
    assert SumAmounts(items[..2]) == 13000000;
    assert SumAmounts(items[..3]) == 20000000;
    assert SumAmounts(items[..4]) == 23000000;
  }

  /** `pad3` pads to three digits and leaves longer numbers alone. */
  lemma Pad3Shape(n: nat)
    ensures n < 10 ==> Pad3(n) == "00" + NatToString(n)
    ensures 10 <= n < 100 ==> Pad3(n) == "0" + NatToString(n)
    ensures n >= 100 ==> Pad3(n) == NatToString(n)
  {
    PadStartToThree(NatToString(n), '0');
  }

  /** Different numbers pad differently. */
  lemma Pad3Injective(m: nat, n: nat)
    requires m != n
    ensures Pad3(m) != Pad3(n)
  {
    assert DigitsValue(Pad3(m)) != DigitsValue(Pad3(n));
  }

  lemma PrefixKeepsDistinct(p: string, a: string, b: string)
    requires a != b
    ensures p + a != p + b
  {
    assert (p + a)[|p|..] == a && (p + b)[|p|..] == b;
  }

  /** The generated ids and numbers are pairwise distinct. */
  lemma MockIdsDistinct(count: int, i: int, j: int)
    requires 0 <= i < j < count
    ensures MockInvoices(count)[i].id != MockInvoices(count)[j].id
    ensures MockInvoices(count)[i].invoiceNumber != MockInvoices(count)[j].invoiceNumber
  {
    Pad3Injective(i + 1, j + 1);
    PrefixKeepsDistinct("mock-invoice-", Pad3(i + 1), Pad3(j + 1));
    PrefixKeepsDistinct("INV-2025-", Pad3(i + 1), Pad3(j + 1));
  }
}

=== FILE: notion_parser.dfy ===
/** Turning raw store pages into domain values (src/lib/utils/notion-parser.ts). */
module NotionParser {
  import opened Wrappers
  import opened Domain
  import opened Constants
  import opened NotionTypes

  /** What the transformation needs from the clock: today's date, and the default
      validity end computed from an issue date (a date calculation that is not modelled). */
  datatype Calendar = Calendar(today: string, defaultValidUntil: string -> string)

  const DefaultInvoiceNumber: string := "INV-UNKNOWN"
  const DefaultClientName: string := "미지정"
  const DefaultDescription: string := "항목명 없음"

  /** The in-order concatenation of text fragments. */
  function Concat(fragments: seq<string>): string
  {
    if fragments == [] then "" else fragments[0] + Concat(fragments[1..])
  }

  /** `extractPlainText`: '' for an absent or empty array, else the joined fragments. */
  function ExtractPlainText(fragments: Option<seq<string>>): (r: string)
    ensures fragments.None? ==> r == ""
    ensures fragments.Some? ==> r == Concat(fragments.value)
  {
    if fragments.None? || |fragments.value| == 0 then "" else Concat(fragments.value)
  }

  /** Concatenation distributes over splitting the fragment list: fragments are
      kept in order and none is dropped. */
  lemma {:induction false} ConcatAppend(a: seq<string>, b: seq<string>)
    ensures Concat(a + b) == Concat(a) + Concat(b)
    decreases |a|
  {
    if a == [] {
      assert a + b == b;
    } else {
      assert (a + b)[1..] == a[1..] + b;
      ConcatAppend(a[1..], b);
    }
  }

  /** The length of the extracted text is the total length of the fragments. */
  function TotalLength(fragments: seq<string>): nat
  {
    if fragments == [] then 0 else |fragments[0]| + TotalLength(fragments[1..])
  }

  lemma {:induction false} ConcatLength(fragments: seq<string>)
    ensures |Concat(fragments)| == TotalLength(fragments)
    ensures Concat(fragments) == "" <==> TotalLength(fragments) == 0
    decreases |fragments|
  {
    if fragments != [] {
      ConcatLength(fragments[1..]);
    }
  }

  /** `text || fallback`: the empty string is falsy. */
  function TextOr(text: string, fallback: string): (r: string)
    ensures text != "" ==> r == text
    ensures text == "" ==> r == fallback
  {
    if text != "" then text else fallback
  }

  /** `number || fallback`: absent (null) and zero are both falsy. */
  function NumberOr(n: Option<int>, fallback: int): (r: int)
    ensures n.Some? && n.value != 0 ==> r == n.value
    ensures n.None? || n.value == 0 ==> r == fallback
  {
    if n.Some? && n.value != 0 then n.value else fallback
  }

  /** `mapKoreanStatus`: an empty or missing label is pending; otherwise the table's
      answer, with `undefined` replaced by pending. An inherited member is truthy and
      passes through as it is. */
  function MapKoreanStatus(koreanLabel: Option<string>): (r: StatusField)
    ensures r == Status(Approved) <==> koreanLabel == Some("승인")
    ensures r == Status(Rejected) <==> koreanLabel == Some("거절")
    ensures r.InheritedMember? <==> koreanLabel.Some? && IsObjectPrototypeMember(koreanLabel.value)
    ensures r.InheritedMember? ==> r.name == koreanLabel.value
    ensures r == Status(Pending) <==>
              koreanLabel != Some("승인") && koreanLabel != Some("거절")
              && !(koreanLabel.Some? && IsObjectPrototypeMember(koreanLabel.value))
  {
    if koreanLabel.None? || koreanLabel.value == "" then Status(Pending)
    else
      match KoreanToStatus(koreanLabel.value)
      case Own(s) => Status(s)
      case Inherited(member) => InheritedMember(member)
      case Missing => Status(Pending)
  }

  /** `transformNotionToItem`. */
  function TransformItem(page: RawPage): (r: InvoiceItem)
    ensures r.id == page.id
    ensures r.description != ""
    ensures ExtractPlainText(TitleOf(page.properties, ItemNameKey)) != "" ==>
              r.description == ExtractPlainText(TitleOf(page.properties, ItemNameKey))
    ensures ExtractPlainText(TitleOf(page.properties, ItemNameKey)) == "" ==> r.description == DefaultDescription
    ensures r.quantity == NumberOr(NumberOf(page.properties, QuantityKey), 0)
    ensures r.unitPrice == NumberOr(NumberOf(page.properties, UnitPriceKey), 0)
    ensures ItemHasAmount(page) ==> r.amount == NumberOf(page.properties, AmountKey).value
    ensures !ItemHasAmount(page) ==> r.amount == r.quantity * r.unitPrice
  {
    var props := page.properties;
    var description := TextOr(ExtractPlainText(TitleOf(props, ItemNameKey)), DefaultDescription);
    var quantity := NumberOr(NumberOf(props, QuantityKey), 0);
    var unitPrice := NumberOr(NumberOf(props, UnitPriceKey), 0);
    var amount := NumberOr(NumberOf(props, AmountKey), quantity * unitPrice);
    InvoiceItem(page.id, description, quantity, unitPrice, amount)
  }

  /** The item page carries an explicit amount that counts: present and nonzero. */
  predicate ItemHasAmount(page: RawPage) {
    var n := NumberOf(page.properties, AmountKey);
    n.Some? && n.value != 0
  }

  /** `calculateTotalFromItems`: a left fold adding each page's raw amount, missing as 0. */
  function CalculateTotalFromItems(itemPages: seq<RawPage>): (total: int)
    ensures itemPages == [] ==> total == 0
    ensures |itemPages| == 1 ==> total == NumberOr(NumberOf(itemPages[0].properties, AmountKey), 0)
  {
    if itemPages == [] then 0
    else CalculateTotalFromItems(itemPages[..|itemPages| - 1])
         + NumberOr(NumberOf(itemPages[|itemPages| - 1].properties, AmountKey), 0)
  }

  /** The fold is additive: totalling a split list is totalling each part and adding. */
  lemma {:induction false} CalculateTotalAppend(a: seq<RawPage>, b: seq<RawPage>)
    ensures CalculateTotalFromItems(a + b) == CalculateTotalFromItems(a) + CalculateTotalFromItems(b)
    decreases |b|
  {
    if b == [] {
      assert a + b == a;
    } else {
      var b' := b[..|b| - 1];
      assert (a + b)[..|a + b| - 1] == a + b';
      assert (a + b)[|a + b| - 1] == b[|b| - 1];
      CalculateTotalAppend(a, b');
    }
  }

  /** Item pages without a nonzero amount add nothing, and non-negative amounts give a
      non-negative total. */
  lemma {:induction false} CalculateTotalBounds(itemPages: seq<RawPage>)
    ensures (forall i :: 0 <= i < |itemPages| ==> !ItemHasAmount(itemPages[i])) ==>
              CalculateTotalFromItems(itemPages) == 0
    ensures (forall i :: 0 <= i < |itemPages| ==> NumberOr(NumberOf(itemPages[i].properties, AmountKey), 0) >= 0) ==>
              CalculateTotalFromItems(itemPages) >= 0
    decreases |itemPages|
  {
    if itemPages != [] {
      var front := itemPages[..|itemPages| - 1];
      CalculateTotalBounds(front);
      assert forall i :: 0 <= i < |front| ==> front[i] == itemPages[i];
    }
  }

  /** `itemPages.map(transformNotionToItem)`. */
  function TransformItems(itemPages: seq<RawPage>): (r: seq<InvoiceItem>)
    ensures |r| == |itemPages|
    ensures forall i :: 0 <= i < |r| ==> r[i] == TransformItem(itemPages[i])
  {
    seq(|itemPages|, i requires 0 <= i < |itemPages| => TransformItem(itemPages[i]))
  }

  /** The explicit total, if the page carries one that counts. */
  predicate InvoiceHasTotal(page: RawPage) {
    var n := NumberOf(page.properties, TotalAmountKey);
    n.Some? && n.value != 0
  }

  /** `transformNotionToInvoice`. */
  function TransformInvoice(page: RawPage, itemPages: seq<RawPage>, cal: Calendar): (r: Invoice)
    ensures r.id == page.id
    ensures |r.items| == |itemPages|
    ensures forall i :: 0 <= i < |r.items| ==> r.items[i] == TransformItem(itemPages[i])
    ensures forall i :: 0 <= i < |r.items| ==> r.items[i].id == itemPages[i].id
    ensures r.invoiceNumber != "" && r.clientName != ""
    ensures r.invoiceNumber == DefaultInvoiceNumber <==>
              ExtractPlainText(TitleOf(page.properties, InvoiceNumberKey)) in {"", DefaultInvoiceNumber}
    ensures r.clientName == DefaultClientName <==>
              ExtractPlainText(RichTextOf(page.properties, ClientNameKey)) in {"", DefaultClientName}
    ensures var t := ExtractPlainText(TitleOf(page.properties, InvoiceNumberKey));
            (t != "" ==> r.invoiceNumber == t) && (t == "" ==> r.invoiceNumber == DefaultInvoiceNumber)
    ensures var t := ExtractPlainText(RichTextOf(page.properties, ClientNameKey));
            (t != "" ==> r.clientName == t) && (t == "" ==> r.clientName == DefaultClientName)
    ensures var d := DateStartOf(page.properties, IssueDateKey).GetOr("");
            (d != "" ==> r.issueDate == d) && (d == "" ==> r.issueDate == cal.today)
    ensures var d := DateStartOf(page.properties, ValidUntilKey).GetOr("");
            (d != "" ==> r.validUntil == d) && (d == "" ==> r.validUntil == cal.defaultValidUntil(r.issueDate))
    ensures InvoiceHasTotal(page) ==> r.totalAmount == NumberOf(page.properties, TotalAmountKey).value
    ensures !InvoiceHasTotal(page) ==> r.totalAmount == CalculateTotalFromItems(itemPages)
    ensures r.status == MapKoreanStatus(SelectNameOf(page.properties, StatusKey))
  {
    var props := page.properties;
    var invoiceNumber := TextOr(ExtractPlainText(TitleOf(props, InvoiceNumberKey)), DefaultInvoiceNumber);
    var clientName := TextOr(ExtractPlainText(RichTextOf(props, ClientNameKey)), DefaultClientName);
    var issueDate := TextOr(DateStartOf(props, IssueDateKey).GetOr(""), cal.today);
    var validUntil := TextOr(DateStartOf(props, ValidUntilKey).GetOr(""), cal.defaultValidUntil(issueDate));
    var totalAmount := NumberOr(NumberOf(props, TotalAmountKey), CalculateTotalFromItems(itemPages));
    var status := MapKoreanStatus(SelectNameOf(props, StatusKey));
    Invoice(page.id, invoiceNumber, clientName, issueDate, validUntil, TransformItems(itemPages), totalAmount, status)
  }

  /** When every item page carries an explicit amount, the fallback total is the sum of
      the transformed items' amounts. */
  lemma {:induction false} TotalMatchesItemAmounts(itemPages: seq<RawPage>)
    requires forall i :: 0 <= i < |itemPages| ==> ItemHasAmount(itemPages[i])
    ensures CalculateTotalFromItems(itemPages) == SumAmounts(TransformItems(itemPages))
    decreases |itemPages|
  {
    if itemPages != [] {
      var n := |itemPages|;
      var front, last := itemPages[..n - 1], itemPages[n - 1];
      forall i | 0 <= i < |front|
        ensures ItemHasAmount(front[i])
      {
        assert front[i] == itemPages[i];
      }
      TotalMatchesItemAmounts(front);
      var items := TransformItems(itemPages);
      assert items[..n - 1] == TransformItems(front);
      assert ItemHasAmount(last);
      assert items[n - 1].amount == NumberOr(NumberOf(last.properties, AmountKey), 0);
    }
  }

  /** The transformed invoice with no explicit total and only priced item pages has
      `totalAmount == sum(items[].amount)`. */
  lemma InvoiceTotalIsItemSum(page: RawPage, itemPages: seq<RawPage>, cal: Calendar)
    requires !InvoiceHasTotal(page)
    requires forall i :: 0 <= i < |itemPages| ==> ItemHasAmount(itemPages[i])
    ensures TransformInvoice(page, itemPages, cal).totalAmount == SumAmounts(TransformInvoice(page, itemPages, cal).items)
  {
    TotalMatchesItemAmounts(itemPages);
  }

  /** The fallback total adds the raw amounts, not the derived `quantity * unitPrice`:
      an item page priced only by quantity and unit price contributes to its line but
      not to the total. */
  lemma TotalIgnoresDerivedAmounts(id: string, cal: Calendar)
    ensures var item := RawPage(id, map[ItemNameKey := TitleProp(["x"]), QuantityKey := NumberProp(Some(2)), UnitPriceKey := NumberProp(Some(5))]);
            var inv := TransformInvoice(RawPage(id, map[InvoiceNumberKey := TitleProp([])]), [item], cal);
            inv.items[0].amount == 10 && inv.totalAmount == 0
  {
    var item := RawPage(id, map[ItemNameKey := TitleProp(["x"]), QuantityKey := NumberProp(Some(2)), UnitPriceKey := NumberProp(Some(5))]);
    assert CalculateTotalFromItems([item]) == CalculateTotalFromItems([]) + 0;
  }
}

=== FILE: notion_types.dfy ===
/** The raw shapes the document store returns (src/types/notion.ts) and the page guards. */
module NotionTypes {
  import opened Wrappers

  /** One property value of a page. Text properties keep their `plain_text` fragments;
      date, number and select payloads are nullable. */
  datatype PropertyValue =
    | TitleProp(title: seq<string>)
    | RichTextProp(richText: seq<string>)
    | DateProp(dateStart: Option<string>)
    | NumberProp(number: Option<int>)
    | SelectProp(selectName: Option<string>)
    | RelationProp(relation: seq<string>)
    | OtherProp

  /** A property bag keyed by the store's (Korean) property names. */
  type Properties = map<string, PropertyValue>

  /** A full page object: it carries `properties`. */
  datatype RawPage = RawPage(id: string, properties: Properties)

  /** What a page retrieval returns: a full page or a partial (e.g. archived) one. */
  datatype PageResponse = Full(page: RawPage) | Partial(partialId: string)

  // Invoice database properties.
  const InvoiceNumberKey: string := "견적서 번호"
  const ClientNameKey: string := "클라이언트명"
  const IssueDateKey: string := "발행일"
  const ValidUntilKey: string := "유효기간"
  const TotalAmountKey: string := "총 금액"
  const StatusKey: string := "상태"
  const ItemsKey: string := "항목"

  // Item database properties.
  const ItemNameKey: string := "항목명"
  const QuantityKey: string := "수량"
  const UnitPriceKey: string := "단가"
  const AmountKey: string := "금액"

  /** `props[key]?.title`. */
  function TitleOf(props: Properties, key: string): Option<seq<string>> {
    if key in props && props[key].TitleProp? then Some(props[key].title) else None
  }

  /** `props[key]?.rich_text`. */
  function RichTextOf(props: Properties, key: string): Option<seq<string>> {
    if key in props && props[key].RichTextProp? then Some(props[key].richText) else None
  }

  /** `props[key]?.date?.start`. */
  function DateStartOf(props: Properties, key: string): Option<string> {
    if key in props && props[key].DateProp? then props[key].dateStart else None
  }

  /** `props[key]?.number`. */
  function NumberOf(props: Properties, key: string): Option<int> {
    if key in props && props[key].NumberProp? then props[key].number else None
  }

  /** `props[key]?.select?.name`. */
  function SelectNameOf(props: Properties, key: string): Option<string> {
    if key in props && props[key].SelectProp? then props[key].selectName else None
  }

  /** `props[key]?.relation?.map(r => r.id) || []`. */
  function RelationIdsOf(props: Properties, key: string): seq<string> {
    if key in props && props[key].RelationProp? then props[key].relation else []
  }

  /** `isInvoicePage`: the bag has the invoice-number key. */
  predicate IsInvoicePage(page: RawPage) {
    InvoiceNumberKey in page.properties
  }

  /** `isItemPage`: the bag has the item-name key. */
  predicate IsItemPage(page: RawPage) {
    ItemNameKey in page.properties
  }

  /** Both guards look at key presence only: whatever value sits under the key
      (an empty title included), and whatever else the bag holds, the answer is the same. */
  lemma GuardsTestKeyPresenceOnly(page: RawPage, v: PropertyValue, w: PropertyValue)
    ensures IsInvoicePage(RawPage(page.id, page.properties[InvoiceNumberKey := v]))
    ensures IsItemPage(RawPage(page.id, page.properties[ItemNameKey := w]))
    ensures IsInvoicePage(RawPage(page.id, map[InvoiceNumberKey := TitleProp([])]))
    ensures !IsInvoicePage(RawPage(page.id, page.properties - {InvoiceNumberKey}))
    ensures !IsItemPage(RawPage(page.id, page.properties - {ItemNameKey}))
  {
  }

  /** Accessors see a property only when it has the expected type; a number stored
      under a date key reads as absent. */
  lemma AccessorsAreTyped(props: Properties, key: string, n: Option<int>)
    ensures DateStartOf(props[key := NumberProp(n)], key).None?
    ensures NumberOf(props[key := NumberProp(n)], key) == n
    ensures NumberOf(props - {key}, key).None?
  {
  }
}

=== FILE: pdf_route.dfy ===
/** The PDF endpoint (src/app/api/generate-pdf/route.ts, `POST`): validate the posted
    quotation, render it, and answer with the file or a JSON error. Rendering is an
    oracle that either yields the document bytes or fails. */
module PdfRoute {
  import opened Wrappers
  import opened Domain
  import opened Constants
  import opened Format
  import opened Text

  newtype byte = x: int | 0 <= x < 256

  /** What `req.json()` and the destructuring `{ invoice }` produce: a body that is not
      JSON, the JSON `null` (destructuring it throws), or an object whose `invoice`
      member may be missing. */
  datatype RequestBody = Unparsable | NullBody | Body(invoice: Option<Invoice>)

  /** `ReactPDF.pdf(...).toBlob()`: the rendered bytes, or `None` when rendering throws. */
  type Renderer = Invoice -> Option<seq<byte>>

  datatype Response =
    | JsonError(status: int, error: string)
    | PdfFile(body: seq<byte>, contentType: string, contentDisposition: string, cacheControl: string)

  const BadRequest := 400
  const ServerError := 500

  /** The file name the server announces. */
  function PdfFilename(invoiceNumber: string): (r: string)
    ensures |r| == |SanitizeFilename(invoiceNumber)| + 12
    ensures r[..8] == "invoice-" && r[|r| - 4..] == ".pdf"
    ensures forall i :: 8 <= i < |r| - 4 ==> !IsUnsafeChar(r[i])
  {
    PdfFilenamePrefix + "-" + SanitizeFilename(invoiceNumber) + ".pdf"
  }

  /** The name the download button gives the saved file
      (src/components/invoice/PDFDownloadButton.tsx). */
  function DownloadName(invoiceNumber: string): string {
    "invoice-" + SanitizeFilename(invoiceNumber) + ".pdf"
  }

  function ContentDisposition(filename: string): (r: string)
    ensures |r| == |filename| + 23
    ensures r[..22] == "attachment; filename=\"" && r[|r| - 1] == '"'
    ensures r[22..|r| - 1] == filename
  {
    "attachment; filename=\"" + filename + "\""
  }

  /** A body the route refuses before rendering: no quotation, or one with an empty number. */
  predicate IsInvalidBody(body: RequestBody) {
    body.Body? && (body.invoice.None? || body.invoice.value.invoiceNumber == "")
  }

  /** A character a header value may hold: `new NextResponse` converts each value to a
      byte string, then normalises it (strips leading and trailing tabs and spaces) and
      refuses it if it holds NUL, LF or CR (the Fetch standard's "header value"). Either
      refusal throws a `TypeError`. */
  predicate IsHeaderValueChar(c: char) {
    c as int <= 0xFF && c != '\0' && c != '\n' && c != '\r'
  }

  /** A value the response constructor accepts; after normalisation, surrounding
      whitespace never causes a refusal. */
  predicate IsHeaderValue(s: string) {
    forall i :: 0 <= i < |s| ==> IsHeaderValueChar(s[i])
  }

  /** A concatenation is a header value exactly when both parts are. */
  lemma HeaderValueAppend(a: string, b: string)
    ensures IsHeaderValue(a + b) <==> IsHeaderValue(a) && IsHeaderValue(b)
  {
    if IsHeaderValue(a + b) {
      forall i | 0 <= i < |a|
        ensures IsHeaderValueChar(a[i])
      {
        assert a[i] == (a + b)[i];
      }
      forall i | 0 <= i < |b|
        ensures IsHeaderValueChar(b[i])
      {
        assert b[i] == (a + b)[|a| + i];
      }
    }
  }

  /** The `Content-Disposition` value cannot be a header, so `new NextResponse` throws. */
  predicate HeaderRejected(invoiceNumber: string) {
    !IsHeaderValue(ContentDisposition(PdfFilename(invoiceNumber)))
  }

  /** `POST /api/generate-pdf`. The response is built after rendering, so a header that
      cannot be converted surfaces in the `catch` as the generation error. */
  function HandlePdfRequest(body: RequestBody, render: Renderer): (r: Response)
    ensures r.JsonError? && r.status == BadRequest <==> IsInvalidBody(body)
    ensures r.JsonError? && r.status == BadRequest ==> r.error == ErrorMessage(InvalidInvoiceData)
    ensures r.JsonError? && r.status == ServerError <==>
      || body.Unparsable? || body.NullBody?
      || (!IsInvalidBody(body)
          && (render(body.invoice.value).None? || HeaderRejected(body.invoice.value.invoiceNumber)))
    ensures r.JsonError? && r.status == ServerError ==> r.error == ErrorMessage(PdfGenerationError)
    ensures r.JsonError? ==> r.status == BadRequest || r.status == ServerError
    ensures r.PdfFile? ==>
      && body.Body? && body.invoice.Some? && body.invoice.value.invoiceNumber != ""
      && render(body.invoice.value) == Some(r.body)
      && r.contentType == "application/pdf"
      && r.contentDisposition == ContentDisposition(DownloadName(body.invoice.value.invoiceNumber))
      && IsHeaderValue(r.contentDisposition)
      && r.cacheControl == "public, max-age=0"
  {
    match body
    case Unparsable => JsonError(ServerError, ErrorMessage(PdfGenerationError))
    case NullBody => JsonError(ServerError, ErrorMessage(PdfGenerationError))
    case Body(invoice) =>
      if invoice.None? || invoice.value.invoiceNumber == "" then
        JsonError(BadRequest, ErrorMessage(InvalidInvoiceData))
      else
        match render(invoice.value)
        case None => JsonError(ServerError, ErrorMessage(PdfGenerationError))
        case Some(bytes) =>
          var disposition := ContentDisposition(PdfFilename(invoice.value.invoiceNumber));
          if !IsHeaderValue(disposition) then JsonError(ServerError, ErrorMessage(PdfGenerationError))
          else
            ServerAndClientNamesAgree(invoice.value.invoiceNumber);
            PdfFile(bytes, "application/pdf", disposition, "public, max-age=0")
  }

  /** The fixed parts of the header are plain ASCII, so the header is refused exactly when
      the sanitised quotation number holds a character no header value may hold. */
  lemma HeaderRejectedIffBadName(invoiceNumber: string)
    ensures HeaderRejected(invoiceNumber) <==> !IsHeaderValue(SanitizeFilename(invoiceNumber))
  {
    var name := SanitizeFilename(invoiceNumber);
    var prefix := PdfFilenamePrefix + "-";
    var filename := PdfFilename(invoiceNumber);
    var open := "attachment; filename=\"";
    FixedPartsAreHeaderValues();
    HeaderValueAppend(prefix, name);
    HeaderValueAppend(prefix + name, ".pdf");
    HeaderValueAppend(open, filename);
    HeaderValueAppend(open + filename, "\"");
  }

  /** The fixed text around the sanitised name is itself a valid header value. */
  lemma FixedPartsAreHeaderValues()
    ensures IsHeaderValue(PdfFilenamePrefix + "-") && IsHeaderValue(".pdf")
    ensures IsHeaderValue("attachment; filename=\"") && IsHeaderValue("\"")
  {
  }

  /** Sanitising turns every LF and CR into '-', so of the refused characters only those
      above U+00FF and NUL can reach the header: the route answers 500 exactly for those. */
  lemma HeaderRejectedIffWideOrNul(invoiceNumber: string)
    ensures HeaderRejected(invoiceNumber) <==>
              !IsByteString(SanitizeFilename(invoiceNumber)) || '\0' in SanitizeFilename(invoiceNumber)
    ensures '\n' !in SanitizeFilename(invoiceNumber) && '\r' !in SanitizeFilename(invoiceNumber)
  {
    HeaderRejectedIffBadName(invoiceNumber);
    var name := SanitizeFilename(invoiceNumber);
    assert forall i :: 0 <= i < |name| ==> !IsJsWhitespace(name[i]);
    if !IsHeaderValue(name) {
      var i :| 0 <= i < |name| && !IsHeaderValueChar(name[i]);
      assert name[i] as int > 0xFF || name[i] == '\0';
      if name[i] as int > 0xFF {
        assert !IsByteString(name);
      }
    }
  }

  /** A character of the quotation number that sanitising keeps but no header value may
      hold makes the route answer 500, never the file. */
  lemma RefusedCharIsServerError(inv: Invoice, render: Renderer, c: char)
    requires inv.invoiceNumber != "" && render(inv).Some?
    requires c in inv.invoiceNumber && !IsUnsafeChar(c) && !IsHeaderValueChar(c)
    ensures HandlePdfRequest(Body(Some(inv)), render) == JsonError(ServerError, ErrorMessage(PdfGenerationError))
  {
    SanitizeKeepsChar(inv.invoiceNumber, c);
    HeaderRejectedIffBadName(inv.invoiceNumber);
  }

  /** A quotation number holding a character above U+00FF that sanitising keeps (any
      Hangul syllable, say) is never answered with the file: the route answers 500. */
  lemma WideNumberIsServerError(inv: Invoice, render: Renderer, c: char)
    requires inv.invoiceNumber != "" && render(inv).Some?
    requires c in inv.invoiceNumber && c as int > 0xFF && !IsJsWhitespace(c)
    ensures HandlePdfRequest(Body(Some(inv)), render) == JsonError(ServerError, ErrorMessage(PdfGenerationError))
  {
    RefusedCharIsServerError(inv, render, c);
  }

  /** NUL is not whitespace, so sanitising keeps it, and the header refuses it: 500. */
  lemma NulNumberIsServerError(inv: Invoice, render: Renderer)
    requires '\0' in inv.invoiceNumber && render(inv).Some?
    ensures HandlePdfRequest(Body(Some(inv)), render) == JsonError(ServerError, ErrorMessage(PdfGenerationError))
  {
    RefusedCharIsServerError(inv, render, '\0');
  }

  /** The documented Korean example number cannot be downloaded. */
  lemma KoreanNumberIsServerError(inv: Invoice, render: Renderer)
    requires inv.invoiceNumber == "견적서 #001 (2025.10.07)" && render(inv).Some?
    ensures HandlePdfRequest(Body(Some(inv)), render) == JsonError(ServerError, ErrorMessage(PdfGenerationError))
  {
    assert inv.invoiceNumber[0] == '견';
    WideNumberIsServerError(inv, render, '견');
  }

  /** The server's file name is the one the download button uses. */
  lemma ServerAndClientNamesAgree(invoiceNumber: string)
    ensures PdfFilename(invoiceNumber) == DownloadName(invoiceNumber)
  {
  }

  /** A refused body is answered without rendering: the answer does not depend on the
      renderer at all. */
  lemma InvalidBodyIsNotRendered(body: RequestBody, render1: Renderer, render2: Renderer)
    requires IsInvalidBody(body)
    ensures HandlePdfRequest(body, render1) == HandlePdfRequest(body, render2)
  {
  }

  /** Whether the file is served, and the name it is announced under, depend on the
      quotation number only. */
  lemma FilenameDependsOnNumberOnly(a: Invoice, b: Invoice, render: Renderer)
    requires a.invoiceNumber == b.invoiceNumber && a.invoiceNumber != ""
    requires render(a).Some? && render(b).Some?
    ensures HandlePdfRequest(Body(Some(a)), render).PdfFile? <==> HandlePdfRequest(Body(Some(b)), render).PdfFile?
    ensures HandlePdfRequest(Body(Some(a)), render).PdfFile? ==>
              (HandlePdfRequest(Body(Some(a)), render).contentDisposition
               == HandlePdfRequest(Body(Some(b)), render).contentDisposition)
  {
  }
}

=== FILE: rate_limit.dfy ===
/** The fixed-window rate limiter (src/lib/rate-limit.ts) as an explicit state machine
    over the per-identifier table; the current time is an argument. */
module RateLimit {
  import opened Wrappers

  /** One identifier's window: requests counted so far and when the window ends (ms). */
  datatype RateRecord = RateRecord(count: int, resetTime: int)

  type RateTable = map<string, RateRecord>

  /** The answer to one check; `retryAfter` (whole seconds) only on a denial. */
  datatype RateLimitResult = RateLimitResult(allowed: bool, remaining: int, retryAfter: Option<int>)

  /** A check's answer together with the table after it. */
  datatype RateCheck = RateCheck(result: RateLimitResult, table: RateTable)

  /** `Math.ceil(ms / 1000)` for any integer number of milliseconds. */
  function CeilSeconds(ms: int): (r: int)
    ensures 1000 * (r - 1) < ms <= 1000 * r
  {
    if ms >= 0 then (ms + 999) / 1000 else -((-ms) / 1000)
  }

  /** The window is over only strictly after its reset time. */
  predicate Expired(rec: RateRecord, now: int) {
    now > rec.resetTime
  }

  /** `checkRateLimit(identifier, limit, windowMs)` at time `now`. */
  function CheckRateLimit(table: RateTable, id: string, limit: int, windowMs: int, now: int): (c: RateCheck)
    ensures forall k :: k != id ==> (k in c.table <==> k in table)
    ensures forall k :: k != id && k in table ==> c.table[k] == table[k]
    ensures id in c.table
    ensures id !in table || Expired(table[id], now) ==>
              c.table[id] == RateRecord(1, now + windowMs) && c.result == RateLimitResult(true, limit - 1, None)
    ensures id in table && !Expired(table[id], now) && table[id].count >= limit ==>
              c.table == table
              && c.result == RateLimitResult(false, 0, Some(CeilSeconds(table[id].resetTime - now)))
    ensures id in table && !Expired(table[id], now) && table[id].count < limit ==>
              c.table[id] == RateRecord(table[id].count + 1, table[id].resetTime)
              && c.result == RateLimitResult(true, limit - c.table[id].count, None)
  {
    if id !in table || Expired(table[id], now) then
      RateCheck(RateLimitResult(true, limit - 1, None), table[id := RateRecord(1, now + windowMs)])
    else
      var rec := table[id];
      if rec.count >= limit then
        RateCheck(RateLimitResult(false, 0, Some(CeilSeconds(rec.resetTime - now))), table)
      else
        var updated := RateRecord(rec.count + 1, rec.resetTime);
        RateCheck(RateLimitResult(true, limit - updated.count, None), table[id := updated])
  }

  /** The periodic sweep: drop exactly the records whose window is over. */
  function Sweep(table: RateTable, now: int): (t: RateTable)
    ensures forall k :: k in t <==> k in table && !Expired(table[k], now)
    ensures forall k :: k in t ==> t[k] == table[k]
  {
    map k | k in table && !Expired(table[k], now) :: table[k]
  }

  /** The table is consistent with a limiter used with fixed `limit` and `windowMs`
      whose clock has reached `now`: counts lie in 1..limit and no window ends later
      than one window from now. */
  predicate Valid(table: RateTable, limit: int, windowMs: int, now: int) {
    forall k :: k in table ==> 1 <= table[k].count <= limit && table[k].resetTime <= now + windowMs
  }

  /** A check at a later time keeps the table valid: no count ever exceeds the limit. */
  lemma CheckPreservesValid(table: RateTable, id: string, limit: int, windowMs: int, now: int, later: int)
    requires limit >= 1 && windowMs >= 0
    requires Valid(table, limit, windowMs, now) && now <= later
    ensures Valid(CheckRateLimit(table, id, limit, windowMs, later).table, limit, windowMs, later)
  {
  }

  /** Sweeping keeps the table valid. */
  lemma SweepPreservesValid(table: RateTable, limit: int, windowMs: int, now: int)
    requires Valid(table, limit, windowMs, now)
    ensures Valid(Sweep(table, now), limit, windowMs, now)
  {
  }

  /** On a valid table a denial asks the caller to wait between 0 and one window,
      rounded up to seconds, and 0 exactly at the boundary `now == resetTime`. */
  lemma RetryAfterBounds(table: RateTable, id: string, limit: int, windowMs: int, now: int)
    requires windowMs >= 0 && Valid(table, limit, windowMs, now)
    requires !CheckRateLimit(table, id, limit, windowMs, now).result.allowed
    ensures var ra := CheckRateLimit(table, id, limit, windowMs, now).result.retryAfter;
            ra.Some? && 0 <= ra.value <= CeilSeconds(windowMs)
            && (ra.value == 0 <==> now == table[id].resetTime)
  {
    var d := table[id].resetTime - now;
    assert 0 <= d <= windowMs;
    CeilMonotone(d, windowMs);
  }

  lemma CeilMonotone(a: int, b: int)
    requires 0 <= a <= b
    ensures 0 <= CeilSeconds(a) <= CeilSeconds(b)
  {
  }

  /** Sweeping before a check never changes its answer, nor the checked identifier's record. */
  lemma SweepIsInvisible(table: RateTable, id: string, limit: int, windowMs: int, sweptAt: int, now: int)
    requires sweptAt <= now
    ensures CheckRateLimit(Sweep(table, sweptAt), id, limit, windowMs, now).result
            == CheckRateLimit(table, id, limit, windowMs, now).result
    ensures CheckRateLimit(Sweep(table, sweptAt), id, limit, windowMs, now).table[id]
            == CheckRateLimit(table, id, limit, windowMs, now).table[id]
  {
  }

  /** The answers to consecutive checks of one identifier at the given times. */
  function RunChecks(table: RateTable, id: string, limit: int, windowMs: int, times: seq<int>): (rs: seq<RateLimitResult>)
    ensures |rs| == |times|
    decreases |times|
  {
    if times == [] then []
    else
      var c := CheckRateLimit(table, id, limit, windowMs, times[0]);
      [c.result] + RunChecks(c.table, id, limit, windowMs, times[1..])
  }

  /** Inside one window that already holds `c` requests, the next calls are allowed
      with remaining counting down to 0, and every call after that is denied. */
  lemma {:induction false} InWindowRun(table: RateTable, id: string, limit: int, windowMs: int,
                                       times: seq<int>, c: int, reset: int)
    requires id in table && table[id] == RateRecord(c, reset) && c >= 1
    requires forall j :: 0 <= j < |times| ==> times[j] <= reset
    ensures forall j :: 0 <= j < |times| ==>
              RunChecks(table, id, limit, windowMs, times)[j].allowed == (c + j < limit)
    ensures forall j :: 0 <= j < |times| && c + j < limit ==>
              RunChecks(table, id, limit, windowMs, times)[j].remaining == limit - (c + j + 1)
    ensures forall j :: 0 <= j < |times| && c + j >= limit ==>
              RunChecks(table, id, limit, windowMs, times)[j].remaining == 0
    decreases |times|
  {
    if times != [] {
      var chk := CheckRateLimit(table, id, limit, windowMs, times[0]);
      var rest := RunChecks(chk.table, id, limit, windowMs, times[1..]);
      assert RunChecks(table, id, limit, windowMs, times) == [chk.result] + rest;
      if c < limit {
        InWindowRun(chk.table, id, limit, windowMs, times[1..], c + 1, reset);
      } else {
        InWindowRun(chk.table, id, limit, windowMs, times[1..], c, reset);
      }
    }
  }

  /** With a fresh identifier, `limit` calls inside one window are allowed with
      remaining `limit - 1, ..., 0`, and the next one is denied. */
  lemma FixedWindowRun(table: RateTable, id: string, limit: int, windowMs: int, times: seq<int>)
    requires limit >= 1
    requires id !in table
    requires |times| == limit + 1
    requires forall j :: 0 <= j < |times| ==> times[0] <= times[j] <= times[0] + windowMs
    ensures forall j :: 0 <= j < limit ==>
              RunChecks(table, id, limit, windowMs, times)[j] == RateLimitResult(true, limit - 1 - j, None)
    ensures !RunChecks(table, id, limit, windowMs, times)[limit].allowed
    ensures RunChecks(table, id, limit, windowMs, times)[limit].remaining == 0
  {
    var chk := CheckRateLimit(table, id, limit, windowMs, times[0]);
    var rest := times[1..];
    assert RunChecks(table, id, limit, windowMs, times)
        == [chk.result] + RunChecks(chk.table, id, limit, windowMs, rest);
    InWindowRun(chk.table, id, limit, windowMs, rest, 1, times[0] + windowMs);
    RetryAfterOnlyOnDenial(chk.table, id, limit, windowMs, rest);
  }

  /** Only denials carry a retry-after value. */
  lemma {:induction false} RetryAfterOnlyOnDenial(table: RateTable, id: string, limit: int, windowMs: int, times: seq<int>)
    ensures forall j :: 0 <= j < |times| ==>
              (RunChecks(table, id, limit, windowMs, times)[j].retryAfter.Some?
               <==> !RunChecks(table, id, limit, windowMs, times)[j].allowed)
    decreases |times|
  {
    if times != [] {
      var chk := CheckRateLimit(table, id, limit, windowMs, times[0]);
      RetryAfterOnlyOnDenial(chk.table, id, limit, windowMs, times[1..]);
    }
  }

  /** Once the window is over, the next call starts a new one with `limit - 1` remaining. */
  lemma WindowResets(table: RateTable, id: string, limit: int, windowMs: int, now: int)
    requires id in table && now > table[id].resetTime
    ensures CheckRateLimit(table, id, limit, windowMs, now).result == RateLimitResult(true, limit - 1, None)
    ensures CheckRateLimit(table, id, limit, windowMs, now).table[id].count == 1
  {
  }
}

=== FILE: retry.dfy ===
/** Bounded retry with exponential backoff (`withRetry` in src/lib/services/invoice.service.ts).
    The operation is an oracle from attempt index to outcome; the waits are returned as data. */
module Retry {
  import opened Wrappers
  import opened Constants

  const BaseDelayMs: int := 1000
  const MaxDelayMs: int := 5000

  /** The error thrown when the loop never ran (`new Error('Retry failed')`). */
  const RetryFailed: Error := Error(None, "Retry failed")

  /** What one call of `withRetry` did: its outcome, how many times it called the
      operation, and the waits it slept between calls, in order. */
  datatype RetryRun<T> = RetryRun(result: Result<T, Error>, calls: nat, delays: seq<int>)

  function Pow2(i: nat): (r: nat)
    ensures r >= 1
  {
    if i == 0 then 1 else 2 * Pow2(i - 1)
  }

  /** `Math.min(1000 * Math.pow(2, i), 5000)`. */
  function BackoffDelay(i: nat): int
  {
    if BaseDelayMs * Pow2(i) < MaxDelayMs then BaseDelayMs * Pow2(i) else MaxDelayMs
  }

  /** Errors that are rethrown at once: not found, and invalid data. */
  predicate IsTerminal(e: Error) {
    e.message == ErrorMessage(InvoiceNotFound) || e.message == ErrorMessage(InvalidInvoiceData)
  }

  /** `withRetry(fn, maxRetries)`: the run is decided by the first attempt that succeeds,
      fails terminally, or is the last one allowed; every earlier attempt failed
      transiently and was followed by its backoff wait. */
  function WithRetry<T>(fn: nat -> Result<T, Error>, maxRetries: int): (r: RetryRun<T>)
    ensures maxRetries <= 0 ==> r == RetryRun(Failure(RetryFailed), 0, [])
    ensures maxRetries > 0 ==> 1 <= r.calls <= maxRetries && r.result == fn(r.calls - 1)
    ensures maxRetries > 0 ==> |r.delays| == r.calls - 1
    ensures forall j :: 0 <= j < |r.delays| ==> r.delays[j] == BackoffDelay(j)
    ensures forall j :: 0 <= j < r.calls - 1 ==> fn(j).Failure? && !IsTerminal(fn(j).error)
    ensures r.result.Failure? && maxRetries > 0 ==> IsTerminal(r.result.error) || r.calls == maxRetries
  {
    if maxRetries <= 0 then RetryRun(Failure(RetryFailed), 0, []) else Attempts(fn, maxRetries, 0)
  }

  /** The loop from attempt `i` on. */
  function Attempts<T>(fn: nat -> Result<T, Error>, maxRetries: int, i: nat): (r: RetryRun<T>)
    requires i < maxRetries
    ensures i + 1 <= r.calls <= maxRetries && r.result == fn(r.calls - 1)
    ensures |r.delays| == r.calls - 1 - i
    ensures forall j :: 0 <= j < |r.delays| ==> r.delays[j] == BackoffDelay(i + j)
    ensures forall j :: i <= j < r.calls - 1 ==> fn(j).Failure? && !IsTerminal(fn(j).error)
    ensures r.result.Failure? ==> IsTerminal(r.result.error) || r.calls == maxRetries
    decreases maxRetries - i
  {
    match fn(i)
    case Success(v) => RetryRun(Success(v), i + 1, [])
    case Failure(e) =>
      if i == maxRetries - 1 || IsTerminal(e) then RetryRun(Failure(e), i + 1, [])
      else
        var rest := Attempts(fn, maxRetries, i + 1);
        RetryRun(rest.result, rest.calls, [BackoffDelay(i)] + rest.delays)
  }

  lemma {:induction false} Pow2Monotone(i: nat, j: nat)
    requires i <= j
    ensures Pow2(i) <= Pow2(j)
    decreases j - i
  {
    if i < j {
      Pow2Monotone(i, j - 1);
    }
  }

  /** The waits are 1000, 2000, 4000 ms and then 5000 ms for every later attempt. */
  lemma BackoffSchedule(i: nat)
    ensures BackoffDelay(0) == 1000 && BackoffDelay(1) == 2000 && BackoffDelay(2) == 4000
    ensures i >= 3 ==> BackoffDelay(i) == 5000
    ensures BaseDelayMs <= BackoffDelay(i) <= MaxDelayMs
  {
    if i >= 3 {
      Pow2Monotone(3, i);
    }
  }

  /** A terminal error is rethrown after the single attempt, with no wait. */
  lemma TerminalIsNotRetried<T>(fn: nat -> Result<T, Error>, maxRetries: int)
    requires maxRetries > 0
    requires fn(0).Failure? && IsTerminal(fn(0).error)
    ensures WithRetry(fn, maxRetries) == RetryRun(fn(0), 1, [])
  {
  }

  /** Two transient failures followed by a success return that success after
      waiting 1000 and then 2000 ms. */
  lemma SucceedsOnThirdAttempt<T>(fn: nat -> Result<T, Error>, v: T)
    requires fn(0).Failure? && !IsTerminal(fn(0).error)
    requires fn(1).Failure? && !IsTerminal(fn(1).error)
    requires fn(2) == Success(v)
    ensures WithRetry(fn, 3) == RetryRun(Success(v), 3, [1000, 2000])
  {
    BackoffSchedule(0);
  }

  /** When every attempt fails transiently, all `maxRetries` attempts run and the last
      error comes back unchanged after `maxRetries - 1` waits. */
  lemma ExhaustionRethrowsLastError<T>(fn: nat -> Result<T, Error>, maxRetries: int)
    requires maxRetries > 0
    requires forall j: nat :: j < maxRetries ==> fn(j).Failure? && !IsTerminal(fn(j).error)
    ensures WithRetry(fn, maxRetries).calls == maxRetries
    ensures WithRetry(fn, maxRetries).result == fn(maxRetries - 1)
    ensures |WithRetry(fn, maxRetries).delays| == maxRetries - 1
  {
  }
}

=== FILE: text.dfy ===
/** String helpers shared by the model: the JavaScript whitespace class, ASCII
    lower-casing, trimming, substring search and decimal rendering. */
module Text {

  /** The characters matched by the JavaScript regular-expression class `\s`
      (ECMAScript WhiteSpace and LineTerminator). */
  predicate IsJsWhitespace(c: char) {
    c == '\t' || c == '\n' || c == '\U{000B}' || c == '\U{000C}' || c == '\r' || c == ' '
    || c == '\U{00A0}' || c == '\U{1680}' || ('\U{2000}' <= c <= '\U{200A}')
    || c == '\U{2028}' || c == '\U{2029}' || c == '\U{202F}' || c == '\U{205F}'
    || c == '\U{3000}' || c == '\U{FEFF}'
  }

  predicate IsUpperAscii(c: char) {
    'A' <= c <= 'Z'
  }

  /** Lower-cases one character; only ASCII capitals change. */
  function LowerChar(c: char): (r: char)
    ensures !IsUpperAscii(r)
    ensures !IsUpperAscii(c) ==> r == c
    ensures IsJsWhitespace(r) <==> IsJsWhitespace(c)
  {
    if IsUpperAscii(c) then (c as int + 32) as char else c
  }

  /** `toLowerCase` restricted to ASCII. */
  function ToLower(s: string): (r: string)
    ensures |r| == |s|
    ensures forall i :: 0 <= i < |s| ==> r[i] == LowerChar(s[i])
  {
    seq(|s|, i requires 0 <= i < |s| => LowerChar(s[i]))
  }

  predicate StartsWith(s: string, prefix: string) {
    |prefix| <= |s| && s[..|prefix|] == prefix
  }

  /** `s.includes(sub)`: `sub` occurs somewhere in `s`. */
  predicate Contains(s: string, sub: string)
    decreases |s|
  {
    StartsWith(s, sub) || (|s| > 0 && Contains(s[1..], sub))
  }

  /** `sub` occurs in `s` starting at offset `k`. */
  predicate OccursAt(s: string, sub: string, k: int) {
    0 <= k <= |s| - |sub| && s[k..k + |sub|] == sub
  }

  /** `Contains` holds exactly when `sub` occurs at some offset of `s`. */
  lemma {:induction false} ContainsIffOccurs(s: string, sub: string)
    ensures Contains(s, sub) <==> exists k :: OccursAt(s, sub, k)
    decreases |s|
  {
    if |s| > 0 {
      ContainsIffOccurs(s[1..], sub);
      if Contains(s[1..], sub) {
        var k :| OccursAt(s[1..], sub, k);
        assert s[1..][k..k + |sub|] == s[k + 1..k + 1 + |sub|];
        assert OccursAt(s, sub, k + 1);
      }
      if StartsWith(s, sub) {
        assert OccursAt(s, sub, 0);
      }
      if exists k :: OccursAt(s, sub, k) {
        var k :| OccursAt(s, sub, k);
        if k > 0 {
          assert s[1..][k - 1..k - 1 + |sub|] == s[k..k + |sub|];
          assert OccursAt(s[1..], sub, k - 1);
        }
      }
    } else {
      if Contains(s, sub) {
        assert OccursAt(s, sub, 0);
      }
      if exists k :: OccursAt(s, sub, k) {
        var k :| OccursAt(s, sub, k);
        assert sub == [] && StartsWith(s, sub);
      }
    }
  }

  /** `s.trim()`: removes leading and trailing JavaScript whitespace. The result is the
      middle of `s` between a whitespace prefix and a whitespace suffix, and starts and
      ends with a non-whitespace character. */
  function Trim(s: string): (r: string)
    ensures |r| <= |s|
    ensures r != [] ==> !IsJsWhitespace(r[0]) && !IsJsWhitespace(r[|r| - 1])
    ensures exists k :: BetweenWhitespace(s, r, k)
  {
    TrimBetween(s);
    TrimEnd(TrimStart(s))
  }

  lemma TrimBetween(s: string)
    ensures BetweenWhitespace(s, TrimEnd(TrimStart(s)), |s| - |TrimStart(s)|)
  {
    var t := TrimStart(s);
    var r := TrimEnd(t);
    assert t == s[|s| - |t|..];
    assert r == t[..|r|];
    PrefixOfSuffix(s, t, r);
  }

  /** A whitespace-trailed prefix `r` of a whitespace-led suffix `t` of `s` sits in `s`
      between whitespace. */
  lemma PrefixOfSuffix(s: string, t: string, r: string)
    requires |t| <= |s| && t == s[|s| - |t|..] && forall i :: 0 <= i < |s| - |t| ==> IsJsWhitespace(s[i])
    requires |r| <= |t| && r == t[..|r|] && forall i :: |r| <= i < |t| ==> IsJsWhitespace(t[i])
    ensures BetweenWhitespace(s, r, |s| - |t|)
  {
    var k := |s| - |t|;
    assert r == s[k..k + |r|];
    forall i | k + |r| <= i < |s|
      ensures IsJsWhitespace(s[i])
    {
      assert s[i] == t[i - k];
    }
  }

  /** `r` occurs in `s` at offset `k`, with only whitespace before and after it. */
  predicate BetweenWhitespace(s: string, r: string, k: int) {
    && 0 <= k <= |s| - |r| && r == s[k..k + |r|]
    && (forall i :: 0 <= i < k ==> IsJsWhitespace(s[i]))
    && (forall i :: k + |r| <= i < |s| ==> IsJsWhitespace(s[i]))
  }

  /** `s.trimStart()`: the suffix of `s` left after its leading whitespace run. */
  function TrimStart(s: string): (r: string)
    ensures |r| <= |s|
    ensures r != [] ==> !IsJsWhitespace(r[0])
    ensures r == s[|s| - |r|..]
    ensures forall i :: 0 <= i < |s| - |r| ==> IsJsWhitespace(s[i])
  {
    if s != [] && IsJsWhitespace(s[0]) then TrimStart(s[1..]) else s
  }

  /** `s.trimEnd()`: the prefix of `s` left after its trailing whitespace run. */
  function TrimEnd(s: string): (r: string)
    ensures |r| <= |s|
    ensures r != [] ==> !IsJsWhitespace(r[|r| - 1])
    ensures r == s[..|r|]
    ensures forall i :: |r| <= i < |s| ==> IsJsWhitespace(s[i])
    ensures r != [] && s != [] ==> !IsJsWhitespace(s[0]) ==> r[0] == s[0]
  {
    if s != [] && IsJsWhitespace(s[|s| - 1]) then TrimEnd(s[..|s| - 1]) else s
  }

  /** `s.split(',')[0]`: everything before the first comma. */
  function BeforeComma(s: string): (r: string)
    ensures ',' !in r
    ensures StartsWith(s, r)
    ensures |r| < |s| ==> s[|r|] == ','
  {
    if s == [] || s[0] == ',' then [] else [s[0]] + BeforeComma(s[1..])
  }

  function DigitChar(d: nat): char
    requires d < 10
  {
    "0123456789"[d]
  }

  /** `String(n)` for a non-negative integer. */
  function NatToString(n: nat): (r: string)
    ensures |r| >= 1
    ensures forall i :: 0 <= i < |r| ==> '0' <= r[i] <= '9'
    ensures n >= 10 ==> |r| >= 2
    ensures n >= 100 ==> |r| >= 3
    ensures n < 10 ==> |r| == 1
    ensures n < 100 ==> |r| <= 2
    ensures n < 1000 ==> |r| <= 3
  {
    if n < 10 then [DigitChar(n)] else NatToString(n / 10) + [DigitChar(n % 10)]
  }

  /** The value of a string of decimal digits, as `Number(s)` reads it. */
  function DigitsValue(s: string): nat
    requires forall i :: 0 <= i < |s| ==> '0' <= s[i] <= '9'
  {
    if s == [] then 0 else DigitsValue(s[..|s| - 1]) * 10 + (s[|s| - 1] as int - '0' as int)
  }

  lemma DigitCharValue(d: nat)
    requires d < 10
    ensures DigitChar(d) as int - '0' as int == d
  {
  }

  /** Reading back the rendering of `n` gives `n`. */
  lemma {:induction false} NatToStringRoundTrip(n: nat)
    ensures DigitsValue(NatToString(n)) == n
  {
    DigitCharValue(n % 10);
    if n >= 10 {
      NatToStringRoundTrip(n / 10);
      var r := NatToString(n);
      assert r[..|r| - 1] == NatToString(n / 10);
    }
  }

  /** Leading zeros do not change the value. */
  lemma {:induction false} LeadingZeroValue(s: string)
    requires forall i :: 0 <= i < |s| ==> '0' <= s[i] <= '9'
    ensures DigitsValue(['0'] + s) == DigitsValue(s)
    decreases |s|
  {
    if s != [] {
      var z := ['0'] + s;
      assert z[..|z| - 1] == ['0'] + s[..|s| - 1];
      LeadingZeroValue(s[..|s| - 1]);
    }
  }

  /** Zeros in front do not change the value. */
  lemma {:induction false} LeadingZerosValue(k: nat, s: string)
    requires forall i :: 0 <= i < |s| ==> '0' <= s[i] <= '9'
    ensures forall i :: 0 <= i < |Repeat('0', k) + s| ==> '0' <= (Repeat('0', k) + s)[i] <= '9'
    ensures DigitsValue(Repeat('0', k) + s) == DigitsValue(s)
  {
    if k > 0 {
      LeadingZerosValue(k - 1, s);
      var t := Repeat('0', k - 1) + s;
      assert Repeat('0', k) + s == ['0'] + t;
      LeadingZeroValue(t);
    } else {
      assert Repeat('0', k) + s == s;
    }
  }

  /** `String(i)` for any integer. */
  function IntToString(i: int): (r: string)
    ensures |r| >= 1
    ensures i >= 0 ==> r == NatToString(i)
    ensures i < 0 ==> r[0] == '-'
  {
    if i >= 0 then NatToString(i) else "-" + NatToString(-i)
  }

  /** `n` copies of `c`. */
  function Repeat(c: char, n: nat): (r: string)
    ensures |r| == n
    ensures forall i :: 0 <= i < n ==> r[i] == c
  {
    seq(n, _ => c)
  }

  /** `s.padStart(width, fill)`. */
  function PadStart(s: string, width: nat, fill: char): (r: string)
    ensures |r| == if |s| >= width then |s| else width
    ensures r[|r| - |s|..] == s
    ensures forall i :: 0 <= i < |r| - |s| ==> r[i] == fill
  {
    if |s| >= width then s else Repeat(fill, width - |s|) + s
  }

  /** Padding to width three: one or two fill characters in front of a shorter string. */
  lemma PadStartToThree(s: string, fill: char)
    ensures |s| == 1 ==> PadStart(s, 3, fill) == [fill, fill] + s
    ensures |s| == 2 ==> PadStart(s, 3, fill) == [fill] + s
    ensures |s| >= 3 ==> PadStart(s, 3, fill) == s
  {
    if |s| == 1 {
      assert Repeat(fill, 2) == [fill, fill];
    } else if |s| == 2 {
      assert Repeat(fill, 1) == [fill];
    }
  }

  /** A WebIDL `ByteString`: every code unit fits in one byte. Header values are
      converted to it, and the conversion throws a `TypeError` otherwise. */
  predicate IsByteString(s: string) {
    forall i :: 0 <= i < |s| ==> s[i] as int <= 0xFF
  }

  /** The JavaScript `length` of a string: UTF-16 code units. A character above U+FFFF
      is a surrogate pair and counts two; every other character counts one. */
  function Utf16Length(s: string): (n: nat)
    ensures |s| <= n <= 2 * |s|
    ensures |s| == 1 ==> n == (if s[0] as int > 0xFFFF then 2 else 1)
    ensures n == |s| <==> forall i :: 0 <= i < |s| ==> s[i] as int <= 0xFFFF
  {
    if s == [] then 0
    else
      var n := (if s[0] as int > 0xFFFF then 2 else 1) + Utf16Length(s[1..]);
      assert forall i :: 1 <= i < |s| ==> s[i] == s[1..][i - 1];
      n
  }

  /** The code-unit length of a concatenation is the sum of the parts' lengths; with
      the single-character case of `Utf16Length` this fixes the length of every string. */
  lemma {:induction false} Utf16LengthAppend(a: string, b: string)
    ensures Utf16Length(a + b) == Utf16Length(a) + Utf16Length(b)
    decreases |a|
  {
    if a == [] {
      assert a + b == b;
    } else {
      assert (a + b)[1..] == a[1..] + b;
      Utf16LengthAppend(a[1..], b);
    }
  }
}

=== FILE: wrappers.dfy ===
/** Failure-compatible wrappers shared by every module of the model. */
module Wrappers {

  /** A value that may be absent (`undefined`/`null` in the source). */
  datatype Option<+T> = None | Some(value: T) {
    function GetOr(default: T): T {
      match this
      case Some(v) => v
      case None => default
    }
  }

  /** The outcome of an operation that can throw: a value or the thrown error. */
  datatype Result<+R, +E> = Success(value: R) | Failure(error: E) {
    predicate IsFailure() {
      Failure?
    }

    function PropagateFailure<U>(): Result<U, E>
      requires Failure?
    {
      Failure(error)
    }

    function Extract(): R
      requires Success?
    {
      value
    }
  }
}
